=== FILE: README.md ===
# Quiz client decision logic, modelled in Dafny

The repository is the browser client of an exam and practice-quiz platform.
Grading, persistence and the authoritative clock live on a backend; the
client's own logic is the sequential bookkeeping inside its pages and its
store. This project lifts that bookkeeping out of the React components as
pure functions over immutable datatypes and proves what it guarantees:

- `Types` mirrors the question, attempt, session-question and session
  records the pages read (`src/types/index.ts`).
- `ExamMode` and `ExamSections` model the timed exam page: the local answer
  buffer (MCQ select, MULTI toggle, numerical entry), the attempt synced
  when the student leaves a question, the answered counters, the countdown
  and its auto-submit, the clock colour, Prev/Next/navigator moves, and the
  grouping of questions into sections.
- `PracticeMode` models the practice page's per-question state machine:
  option clicks, the submit gate, the attempt payload, hint reveal, the
  reset on index change, Next/Finish, the navigator jump rule and how each
  option is drawn after grading.
- `Results` models the results page's per-question status, the correct /
  wrong / skipped lists, the accuracy colour, the marks sign and when an
  explanation is shown.
- `Dashboard` models the recent and completed session lists, their
  aggregates, the practice configuration and the create request, the
  per-subject exam composition and which rows open their results.
- `Auth` models the authentication store with its one browser-storage slot;
  `Routes` models the route table and its two guards as a total resolution
  function.
- `Durations` and `Decimal` model the two duration renderings (`h:mm:ss` /
  `mm:ss` and `Xm Ys`) down to the characters, each with a parser that reads
  the fields back; `Selection` holds the MULTI toggle both session pages
  share; `Seqs` holds filtering, removal and summing over sequences.

Paths are modelled as lists of segments (`/exam/42` is `["exam", "42"]`).
Numbers the backend computes with fractions are `real`; the numerical
answer a text box parses to is passed in as a `real` by the caller.

Some behaviours are reproduced as the code has them rather than as one might
expect, and are stated as lemmas: a numerical answer clears the option
selection, so it is synced as skipped and left out of the header's answered
count while the navigator shades it answered; an attempt that is neither
skipped nor graded is badged wrong but is in none of the three lists; a
skipped attempt marked correct is in both the correct and the skipped list;
a token restored at start-up authenticates the store without a user.

## Model

| member | source | states |
|---|---|---|
| `ExamMode.SelectSingle` | src/pages/ExamModePage.tsx:187-188 | an MCQ click leaves exactly `opt` selected, clears the skip flag, keeps the entry's numerical response and changes no other entry |
| `ExamMode.ToggleMulti` | src/pages/ExamModePage.tsx:189-197 | a MULTI click flips whether `opt` is selected, keeps every other option's membership, creates no duplicate and changes no other entry |
| `ExamMode.EnterNumber` | src/pages/ExamModePage.tsx:224-227 | a numerical entry stores the number, empties the option selection and changes no other entry |
| `ExamMode.SyncPayload` | src/pages/ExamModePage.tsx:75-86 | the attempt synced for a question carries exactly its buffered option selection and numerical response (nothing when there is no entry) and is flagged skipped exactly when no option is selected |
| `ExamMode.NumberIsSyncedAsSkipped` | src/pages/ExamModePage.tsx:84 | an entry made by typing a number is synced as skipped although it carries that number |
| `ExamMode.SelectionIsSyncedAsAnswered` | src/pages/ExamModePage.tsx:186-197 | after an MCQ click, or a MULTI click that selects, the synced attempt is not skipped |
| `ExamMode.CountedIds` | src/pages/ExamModePage.tsx:135 | the counted entries are exactly the buffered entries with a selected option |
| `ExamMode.AnsweredCount` | src/pages/ExamModePage.tsx:135 | the answered figure never exceeds the number of buffered entries |
| `ExamMode.CountedAreShadedAnswered` | src/pages/ExamModePage.tsx:259 | every counted entry is shaded answered in the navigator, so the header count is at most the number of shaded questions |
| `ExamMode.NumberShadedButNotCounted` | src/pages/ExamModePage.tsx:224-227 | a numerical entry makes the question shaded answered but removes it from the answered count |
| `ExamMode.SelectSingleCounted` | src/pages/ExamModePage.tsx:188 | an MCQ click adds one to the answered count unless the question was already counted |
| `ExamMode.InitialTimeLeft` | src/pages/ExamModePage.tsx:31 | the countdown starts at the session's duration, or at one hour when none is given |
| `ExamMode.CountdownTick` | src/pages/ExamModePage.tsx:43-50 | a tick auto-submits exactly when one second or less is left, then shows zero; otherwise it removes one second; a positive time strictly decreases |
| `ExamMode.RunCountdown` | src/pages/ExamModePage.tsx:42-51 | running the countdown from `start` submits after exactly `start` ticks (one from zero), showing `start-1`, …, `1` and then `0` |
| `ExamMode.TimerUrgency` | src/pages/ExamModePage.tsx:64 | the clock is critical under 300 seconds and calm from 600 seconds, a warning in between |
| `ExamMode.UrgencyEscalates` | src/pages/ExamModePage.tsx:64 | less time left is never less urgent, so a tick never calms the clock |
| `ExamMode.FindIndex` | src/pages/ExamModePage.tsx:262 | the navigator's lookup returns the first position with the id, or -1 exactly when no question has it |
| `ExamMode.Navigate` | src/pages/ExamModePage.tsx:234-246 | Previous is unavailable exactly at the first question and Next turns into the submit confirmation exactly at the last; every move syncs the question being left; Previous and Next land one step away; a navigator jump lands on the first question carrying its id, or on -1 exactly when none does |
| `ExamMode.FailedSyncStays` | src/pages/ExamModePage.tsx:88-94 | a sync that fails leaves the student on the question whatever was clicked; a successful Previous or Next moves one step |
| `ExamMode.NavigationStaysInRange` | src/pages/ExamModePage.tsx:88-94 | every move the page offers keeps the index inside the question list |
| `ExamMode.JumpLandsOnListed` | src/pages/ExamModePage.tsx:262 | with distinct ids a navigator button moves to its own question |
| `ExamSections.FindSection` | src/pages/ExamModePage.tsx:130 | the section lookup finds the section with the name, or -1 exactly when there is none |
| `ExamSections.AddToExisting` | src/pages/ExamModePage.tsx:131 | appending a question to its existing section keeps the grouping a partition of the longer list |
| `ExamSections.AddAsNew` | src/pages/ExamModePage.tsx:130-131 | opening a section for a question keeps the grouping a partition of the longer list |
| `ExamSections.GroupSectionsPartitions` | src/pages/ExamModePage.tsx:128-133 | section names are distinct, each section holds exactly its questions in their original order, none is empty, every question's section exists and the sizes sum to the number of questions |
| `ExamSections.ExactlyOneSection` | src/pages/ExamModePage.tsx:129 | each question is listed in exactly one section, the one its section name (or `General`) names |
| `Decimal.Show` | src/pages/ExamModePage.tsx:60 | the decimal rendering of a number is non-empty, all digits, one digit exactly below 10, and starts with `0` only for zero itself |
| `Durations.Clock` | src/pages/ExamModePage.tsx:55-62 | the clock text is five characters exactly when under an hour |
| `Durations.ClockReadsBack` | src/pages/ExamModePage.tsx:56-61 | the clock's fields read back recombine to the seconds, minutes and seconds are below 60, and an hour field appears exactly from one hour |
| `Decimal.Pad2` | src/pages/ExamModePage.tsx:60 | a padded field of a number below 100 is two digits and reads back as the number |
| `Selection.Toggle` | src/pages/PracticeModePage.tsx:66-68 | the toggle flips membership of the clicked option only and keeps a selection duplicate-free |
| `Selection.ToggleTwice` | src/pages/ExamModePage.tsx:194 | two clicks restore which options are selected, and restore the selection itself when the option was not selected |
| `PracticeMode.ClickOption` | src/pages/PracticeModePage.tsx:61-70 | clicks are ignored once attempted and for numerical questions; MCQ selects only the option; MULTI flips it; only the selection changes |
| `PracticeMode.EnterText` | src/pages/PracticeModePage.tsx:186-188 | typing changes the numerical text only before the question is attempted |
| `PracticeMode.SubmitPayload` | src/pages/PracticeModePage.tsx:72-84 | an attempt is posted only before grading and, for Submit, only when the answer is non-empty; it carries the selection for option questions, the number the typed text parses to, exactly for a non-empty numerical answer, the hints used and the skip flag |
| `PracticeMode.ReceiveResult` | src/pages/PracticeModePage.tsx:85-86 | recording the grading stores exactly that grading, locks the question and keeps the index, selection, typed number and hints |
| `PracticeMode.LockedAfterResult` | src/pages/PracticeModePage.tsx:59-62 | after grading, while the question stays open, clicks, typing and hint buttons change nothing and no second attempt can be posted |
| `PracticeMode.EarlierQuestionReopens` | src/pages/PracticeModePage.tsx:287 | going back to an earlier question arrives there fresh, so an answered question can be posted again once left and revisited |
| `PracticeMode.ForwardGateUsesLoadedAttempts` | src/pages/PracticeModePage.tsx:287 | a later question the page loaded without an attempt cannot be reached from the navigator, even if answered since |
| `PracticeMode.RevealHint` | src/pages/PracticeModePage.tsx:266-268 | a reveal adds exactly one hint, and does so exactly when the question is not attempted and a hidden hint remains |
| `PracticeMode.RevealShowsNextHint` | src/pages/PracticeModePage.tsx:258-272 | a reveal shows exactly the first hidden hint, hides none, and never shows more hints than the question has |
| `PracticeMode.IndexChangeResets` | src/pages/PracticeModePage.tsx:42-49 | moving to another index clears the selection, text, hints, result and skip flag |
| `PracticeMode.HandleNext` | src/pages/PracticeModePage.tsx:92-98 | Next exists only once attempted; at the last question it finishes, otherwise it arrives fresh at the next index, which is still in range |
| `PracticeMode.JumpTo` | src/pages/PracticeModePage.tsx:287 | the navigator moves to `i` exactly when `i` is not ahead or was attempted at load time, arriving there with every per-question field reset; clicking the current question or a blocked one leaves the state alone |
| `PracticeMode.TransitionsKeepValid` | src/pages/PracticeModePage.tsx:56-58 | every transition keeps the index below the number of questions and the shown hints within the question's hints |
| `PracticeMode.LookOf` | src/pages/PracticeModePage.tsx:102-115 | before grading an option is drawn by selection; after, a correct option is drawn correct even if chosen, a chosen incorrect one wrong, the rest muted |
| `PracticeMode.LookAfterGrading` | src/pages/PracticeModePage.tsx:109-114 | once the grading arrives, an option is drawn correct exactly when the backend lists it, and wrong exactly when it was chosen but is not listed |
| `PracticeMode.LookAfterClick` | src/pages/PracticeModePage.tsx:104-107 | before grading, an MCQ click leaves exactly the clicked option drawn chosen, and a MULTI click flips how the clicked option is drawn |
| `Results.StatusOf` | src/pages/ResultsPage.tsx:106 | the badge is skipped exactly without an attempt or for a skip, correct exactly for a non-skipped attempt graded true, wrong otherwise |
| `Results.ListsAgreeWithBadges` | src/pages/ResultsPage.tsx:32-35 | the skipped list is exactly the questions badged skipped; the wrong list holds only questions badged wrong; every question badged correct is in the correct list |
| `Results.WrongIsDisjoint` | src/pages/ResultsPage.tsx:33-35 | nothing is both in the wrong list and in the skipped or correct list, and no list is longer than the questions |
| `Results.BadgesPartition` | src/pages/ResultsPage.tsx:104-106 | the numbers of questions badged correct, wrong and skipped add up to the number of questions |
| `Results.UngradedAttemptIsUncounted` | src/pages/ResultsPage.tsx:34 | an ungraded, unskipped attempt is badged wrong yet is in none of the three lists |
| `Results.SkippedCorrectCountedTwice` | src/pages/ResultsPage.tsx:33-35 | a skipped attempt graded correct is in both the correct and the skipped list |
| `Results.ScoreColor` | src/pages/ResultsPage.tsx:44-45 | accuracy from 70 is good, from 40 middling, below 40 poor |
| `Results.ScoreColorMonotone` | src/pages/ResultsPage.tsx:44-45 | a higher accuracy never gets a worse colour |
| `Results.MarksDisplay` | src/pages/ResultsPage.tsx:134-138 | the marks get a plus sign exactly when positive, and are coloured by their sign, missing marks counting as zero |
| `Results.MarksDisplayMonotone` | src/pages/ResultsPage.tsx:134-138 | more marks never get a worse colour and keep the plus sign once it appears |
| `Results.NoAttemptShowsZero` | src/pages/ResultsPage.tsx:135-138 | a question without an attempt shows unsigned, neutral zero marks |
| `Results.ExplanationOnlyForPracticeMistakes` | src/pages/ResultsPage.tsx:126 | an explanation is shown only in practice sessions and only for questions badged wrong or skipped |
| `Durations.MinSec` | src/pages/ResultsPage.tsx:38-42 | the elapsed-time label is the dash exactly when the time is missing or zero |
| `Durations.MinSecReadsBack` | src/pages/DashboardPage.tsx:77-82 | a positive time's label reads back as minutes and seconds that recombine to it, seconds below 60; the dash reads as nothing |
| `Dashboard.RecentSessions` | src/pages/DashboardPage.tsx:84 | the recent list is the prefix of the sessions of length `min(5, n)` |
| `Dashboard.CompletedSessions` | src/pages/DashboardPage.tsx:85 | the completed list holds exactly the submitted sessions |
| `Dashboard.CompletedKeepsOrder` | src/pages/DashboardPage.tsx:85 | the completed list of a concatenation is the concatenation of the completed lists, so order is kept, and an all-submitted list is kept whole |
| `Dashboard.AverageAccuracy` | src/pages/DashboardPage.tsx:86-88 | the average is absent exactly when the stats row is hidden, that is when nothing is completed |
| `Dashboard.AverageIsMean` | src/pages/DashboardPage.tsx:86-87 | a present average, times the number of completed sessions, gives back their summed accuracy: it is their mean |
| `Dashboard.SumAccuracyAdds` | src/pages/DashboardPage.tsx:87 | the summed accuracy adds up over concatenation |
| `Dashboard.SumAccuracyOfOne` | src/pages/DashboardPage.tsx:87 | one session contributes its accuracy, zero when missing (`s.accuracy ?? 0`) |
| `Dashboard.AverageWithinBounds` | src/pages/DashboardPage.tsx:87 | the average lies between any bounds on the accuracies of the submitted sessions it averages; in-progress rows are unconstrained |
| `Dashboard.TotalQuestionsAdds` | src/pages/DashboardPage.tsx:116 | the total question count adds up over concatenation and unsubmitted sessions contribute nothing |
| `Dashboard.TotalOfOne` | src/pages/DashboardPage.tsx:116 | one session contributes its count (zero when missing) if submitted and nothing otherwise |
| `Dashboard.ExamQuestionsFor` | src/pages/DashboardPage.tsx:220 | an exam has 5 questions of subject `OS` or `DBMS` and 4 of every other subject |
| `Dashboard.InitialConfig` | src/pages/DashboardPage.tsx:28-30 | the practice card starts with both selectors on any and 10 questions, within the slider's range |
| `Dashboard.UntouchedCardRequest` | src/pages/DashboardPage.tsx:51-56 | starting practice from the untouched card asks for 10 questions of any subject and difficulty |
| `Dashboard.SetQuestionCount` | src/pages/DashboardPage.tsx:176-177 | the slider keeps the count within 3 to 14, takes any value in range and leaves the selectors alone |
| `Dashboard.PracticeRequest` | src/pages/DashboardPage.tsx:51-56 | an empty subject or difficulty is sent as absent, a chosen one as itself, with the question count |
| `Dashboard.ExamRequest` | src/pages/DashboardPage.tsx:68 | an exam is requested with its mode alone |
| `Dashboard.RequestedCountInRange` | src/pages/DashboardPage.tsx:176 | whatever the slider does, the requested count stays within 3 to 14 |
| `Dashboard.RowClick` | src/pages/DashboardPage.tsx:242 | a recent row navigates, exactly when its session is submitted, to `/results/<id>` |
| `Dashboard.RowOpensResults` | src/pages/DashboardPage.tsx:242 | a signed-in student clicking a submitted row with an id is shown the results page of that session |
| `Auth.Fresh` | src/store/authStore.ts:14-16 | a new store has no user, no token and is not authenticated |
| `Auth.SetAuth` | src/store/authStore.ts:18-21 | signing in stores the token and holds exactly the user, the token and the authenticated flag |
| `Auth.Logout` | src/store/authStore.ts:23-26 | signing out empties the storage slot and clears user, token and flag |
| `Auth.InitFromStorage` | src/store/authStore.ts:28-31 | a truthy stored token is adopted and authenticates the store with the user unchanged; otherwise nothing changes |
| `Auth.OperationsKeepConsistent` | src/store/authStore.ts:13-31 | every operation keeps "authenticated implies a token, and the token is the stored one" |
| `Auth.SignInThenOut` | src/store/authStore.ts:18-26 | signing in then out returns to the new store with empty storage |
| `Auth.RepeatIsHarmless` | src/store/authStore.ts:23-31 | restoring and signing out are idempotent |
| `Auth.RestoredWithoutUser` | src/store/authStore.ts:28-31 | a restored token authenticates the store while the user is still absent |
| `Routes.Match` | src/App.tsx:32-39 | a path matches a page only when it is exactly that page's own path, with a non-empty session id |
| `Routes.MatchPathOf` | src/App.tsx:33-38 | every page, requested at its own path, is the page matched, so no two routes overlap and none is unreachable |
| `Routes.Resolve` | src/App.tsx:12-20 | a page renders exactly when its route matches and it is private for a signed-in visitor or public for a signed-out one; a signed-out visitor of a private page is sent to `/login`, a signed-in visitor of a public page and every unknown path to `/dashboard` |
| `Routes.SettlesWithinTwoHops` | src/App.tsx:31-40 | following redirects, every path ends on a page within two hops; a path that redirects ends on the dashboard when signed in and on the sign-in page when signed out |
| `Routes.RootWhenSignedOut` | src/App.tsx:32-35 | signed out, `/` goes to `/dashboard`, then to `/login`, which is shown |

## Left out

- Network calls (`src/api/*.ts`) and the backend: an attempt is modelled as the payload value posted, a grading as a value passed in.
- Wall-clock time (`Date.now`, `setInterval`, `timeSpentSeconds`): the countdown is a pure tick on naturals and the time spent is not part of the payload model.
- Floating point: `parseFloat` (including the `NaN` of an empty box), `toFixed`, the `Math.round` of the average accuracy and the progress-bar percentages. Numbers are `real`s given by the caller.
- Dashboard.AverageAccuracy: `AverageIsMean` states the unrounded mean; the `Math.round` to a whole number is floating point and is not modelled.
- Asynchrony: the `submitting` flags that disable buttons while a request is in flight, `handleFinalSubmit` called from inside the countdown's state updater, `alert` on failure. A failed sync is modelled only through `ExamMode.IndexAfter`, which keeps the index.
- ExamMode.Navigate: requires a current question; a session without questions makes both session pages fail at `questions[currentIndex].question` (src/pages/ExamModePage.tsx:123-124, src/pages/PracticeModePage.tsx:56-57), and that crash is not modelled.
- PracticeMode.KindAt: requires a current question, for the same reason.
- ExamSections.GroupSections: treats section names as plain map keys; in the source the accumulator is a plain object, so a section named like an inherited property (`constructor`, `toString`) finds that property and `.push` throws (src/pages/ExamModePage.tsx:130-131). The same holds for answer keys. Section names are assumed not to collide with them.
- The order in which the start-up token restoration (src/App.tsx:24-26) and the guards' redirects run on a fresh page load: it depends on React's effect scheduling.
- `saveCurrentResponse` (src/pages/ExamModePage.tsx:67-72): it is never called.
- The enumeration order of `Object.entries` for section names that look like integers (they would come first); sections are kept in order of first appearance.
- Route matching details of react-router (trailing slashes, case, URL decoding, ranking): paths are already split into segments, and a session id segment is any non-empty string.
- Colours, CSS classes and other presentation (navigator colours in the practice page, badges, progress bars, the greeting, date formatting): only the category chosen is modelled where the logic picks one.
- The login, register and layout components: they only pass form values to the backend and the store.
- `localStorage` is a single optional string slot; other tabs changing it are not modelled.

=== FILE: auth.dfy ===
/** The authentication store (src/store/authStore.ts): the signed-in user,
    the bearer token and the authenticated flag, together with the one
    browser-storage slot that keeps the token across page loads. */
module Auth {
  import opened Types

  datatype AuthState = AuthState(user: Option<User>, token: Option<string>, isAuthenticated: bool)

  /** The store and the token slot of the browser's storage. */
  datatype Store = Store(state: AuthState, stored: Option<string>)

  /** The store as created: nobody signed in. The storage slot keeps
      whatever an earlier visit left there. */
  function Fresh(stored: Option<string>): (s: Store)
    ensures s.state.user.None? && s.state.token.None? && !s.state.isAuthenticated
    ensures s.stored == stored
  {
    Store(AuthState(None, None, false), stored)
  }

  /** Sign-in or registration succeeded: the token is stored and the store
      holds exactly the user and token. */
  function SetAuth(s: Store, user: User, token: string): (r: Store)
    ensures r.stored == Some(token)
    ensures r.state == AuthState(Some(user), Some(token), true)
  {
    Store(AuthState(Some(user), Some(token), true), Some(token))
  }

  /** Signing out clears both the storage slot and the store. */
  function Logout(s: Store): (r: Store)
    ensures r.stored.None?
    ensures r.state.user.None? && r.state.token.None? && !r.state.isAuthenticated
  {
    Store(AuthState(None, None, false), None)
  }

  /** A stored token counts only if it is a non-empty string. */
  predicate Truthy(t: Option<string>) {
    t.Some? && t.value != ""
  }

  /** On start-up a truthy stored token is adopted and the store becomes
      authenticated; the user is left as it was. Otherwise nothing changes. */
  function InitFromStorage(s: Store): (r: Store)
    ensures !Truthy(s.stored) ==> r == s
    ensures Truthy(s.stored) ==>
      r.state == AuthState(s.state.user, s.stored, true) && r.stored == s.stored
  {
    if Truthy(s.stored) then Store(s.state.(token := s.stored, isAuthenticated := true), s.stored)
    else s
  }

  /** The store's invariant: an authenticated store has a token, and the
      token it holds is the stored one. */
  predicate Consistent(s: Store) {
    && (s.state.isAuthenticated ==> s.state.token.Some?)
    && (s.state.token.Some? ==> s.stored == s.state.token)
  }

  /** Every operation establishes or keeps the invariant. */
  lemma OperationsKeepConsistent(s: Store, user: User, token: string, stored: Option<string>)
    requires Consistent(s)
    ensures Consistent(Fresh(stored))
    ensures Consistent(SetAuth(s, user, token))
    ensures Consistent(Logout(s))
    ensures Consistent(InitFromStorage(s))
  {
  }

  /** Signing in and then out leaves the store as created, with nothing in
      storage. */
  lemma SignInThenOut(s: Store, user: User, token: string)
    ensures Logout(SetAuth(s, user, token)) == Fresh(None)
  {
  }

  /** Start-up restoration and sign-out are idempotent. */
  lemma RepeatIsHarmless(s: Store)
    ensures InitFromStorage(InitFromStorage(s)) == InitFromStorage(s)
    ensures Logout(Logout(s)) == Logout(s)
  {
  }

  /** A restored session is authenticated without a user until one is set:
      starting from a fresh store with a stored token. */
  lemma RestoredWithoutUser(token: string)
    requires token != ""
    ensures var r := InitFromStorage(Fresh(Some(token)));
      r.state.isAuthenticated && r.state.user.None? && r.state.token == Some(token)
  {
  }
}

=== FILE: dashboard.dfy ===
/** The dashboard (src/pages/DashboardPage.tsx): the recent and completed
    session lists and their aggregates, the practice configuration and the
    payload it produces, the per-subject exam composition, and which
    session rows open their results. */
module Dashboard {
  import opened Types
  import opened Seqs
  import opened Routes

  /** At most this many sessions are listed under "Recent Sessions". */
  const RecentLimit: nat := 5

  function RecentSessions(sessions: seq<SessionSummary>): (r: seq<SessionSummary>)
    ensures |r| == if |sessions| < RecentLimit then |sessions| else RecentLimit
    ensures r == sessions[..|r|]
  {
    Take(sessions, RecentLimit)
  }

  predicate IsSubmitted(s: SessionSummary) {
    s.status == Submitted
  }

  /** The submitted sessions, in list order. */
  function CompletedSessions(sessions: seq<SessionSummary>): (r: seq<SessionSummary>)
    ensures forall s :: s in r <==> s in sessions && s.status == Submitted
    ensures |r| <= |sessions|
  {
    Filter(sessions, IsSubmitted)
  }

  /** Completion is computed piecewise: it keeps the relative order of the
      sessions it keeps and drops nothing else. */
  lemma CompletedKeepsOrder(a: seq<SessionSummary>, b: seq<SessionSummary>)
    ensures CompletedSessions(a + b) == CompletedSessions(a) + CompletedSessions(b)
    ensures (forall i :: 0 <= i < |a| ==> a[i].status == Submitted) ==> CompletedSessions(a) == a
  {
    FilterAppend(a, b, IsSubmitted);
    FilterAllOrNone(a, IsSubmitted);
  }

  /** The stats row is shown only when some session is completed. */
  predicate ShowStats(sessions: seq<SessionSummary>) {
    |CompletedSessions(sessions)| > 0
  }

  function AccuracyOf(s: SessionSummary): real {
    Coalesce(s.accuracy, 0.0)
  }

  function SumAccuracy(ss: seq<SessionSummary>): real {
    if |ss| == 0 then 0.0 else AccuracyOf(ss[0]) + SumAccuracy(ss[1..])
  }

  /** Accuracy adds up over a concatenation. */
  lemma {:induction false} SumAccuracyAdds(a: seq<SessionSummary>, b: seq<SessionSummary>)
    ensures SumAccuracy(a + b) == SumAccuracy(a) + SumAccuracy(b)
  {
    if |a| == 0 {
      assert a + b == b;
    } else {
      assert (a + b)[1..] == a[1..] + b;
      SumAccuracyAdds(a[1..], b);
    }
  }

  /** A single session contributes its own accuracy, zero when missing. */
  lemma SumAccuracyOfOne(s: SessionSummary)
    ensures SumAccuracy([s]) == Coalesce(s.accuracy, 0.0)
  {
    assert [s][1..] == [];
  }

  /** Average accuracy of the completed sessions (missing accuracy counts as
      zero), absent when none is completed. The rounding to a whole number is
      not modelled. */
  function AverageAccuracy(sessions: seq<SessionSummary>): (r: Option<real>)
    ensures r.None? <==> !ShowStats(sessions)
  {
    var done := CompletedSessions(sessions);
    if |done| == 0 then None else Some(SumAccuracy(done) / (|done| as real))
  }

  /** The average lies between the lowest and highest accuracy averaged. */
  lemma {:induction false} SumAccuracyBounds(ss: seq<SessionSummary>, lo: real, hi: real)
    requires forall i :: 0 <= i < |ss| ==> lo <= AccuracyOf(ss[i]) <= hi
    ensures lo * (|ss| as real) <= SumAccuracy(ss) <= hi * (|ss| as real)
  {
    if |ss| > 0 {
      assert forall i :: 0 <= i < |ss[1..]| ==> ss[1..][i] == ss[i + 1];
      SumAccuracyBounds(ss[1..], lo, hi);
    }
  }

  /** `avg` is the mean accuracy of `ss`: times their number, it gives back
      their summed accuracy. */
  predicate IsMeanOf(avg: real, ss: seq<SessionSummary>) {
    avg * (|ss| as real) == SumAccuracy(ss)
  }

  /** The dashboard's average is the mean accuracy of the completed sessions. */
  lemma AverageIsMean(sessions: seq<SessionSummary>, avg: real)
    requires AverageAccuracy(sessions) == Some(avg)
    ensures IsMeanOf(avg, CompletedSessions(sessions))
  {
    var done := CompletedSessions(sessions);
    MeanUndoesDivision(done, avg);
  }

  lemma MeanUndoesDivision(ss: seq<SessionSummary>, avg: real)
    requires |ss| > 0 && avg == SumAccuracy(ss) / (|ss| as real)
    ensures IsMeanOf(avg, ss)
  {
    DivisionUndone(avg, SumAccuracy(ss), |ss| as real);
  }

  lemma AverageWithinBounds(sessions: seq<SessionSummary>, lo: real, hi: real)
    requires forall s :: s in CompletedSessions(sessions) ==> lo <= AccuracyOf(s) <= hi
    ensures AverageAccuracy(sessions).Some? ==> lo <= AverageAccuracy(sessions).value <= hi
  {
    var done := CompletedSessions(sessions);
    if |done| > 0 {
      assert forall i :: 0 <= i < |done| ==> done[i] in done;
      MeanBounds(done, lo, hi);
    }
  }

  lemma MeanBounds(ss: seq<SessionSummary>, lo: real, hi: real)
    requires |ss| > 0
    requires forall i :: 0 <= i < |ss| ==> lo <= AccuracyOf(ss[i]) <= hi
    ensures lo <= SumAccuracy(ss) / (|ss| as real) <= hi
  {
    SumAccuracyBounds(ss, lo, hi);
    DivisionBounds(SumAccuracy(ss), |ss| as real, lo, hi);
  }

  lemma DivisionUndone(avg: real, total: real, n: real)
    requires n > 0.0 && avg == total / n
    ensures avg * n == total
  {
  }

  lemma DivisionBounds(total: real, n: real, lo: real, hi: real)
    requires n > 0.0 && lo * n <= total <= hi * n
    ensures lo <= total / n <= hi
  {
  }

  function QuestionsOf(s: SessionSummary): nat {
    Coalesce(s.questionCount, 0)
  }

  /** The "Total questions" figure: questions of completed sessions, a
      missing count taken as zero. */
  function TotalQuestions(sessions: seq<SessionSummary>): nat {
    Sum(CompletedSessions(sessions), QuestionsOf)
  }

  /** The total adds up session by session, and sessions that are not
      submitted contribute nothing to it. */
  lemma TotalQuestionsAdds(a: seq<SessionSummary>, b: seq<SessionSummary>)
    ensures TotalQuestions(a + b) == TotalQuestions(a) + TotalQuestions(b)
    ensures (forall i :: 0 <= i < |a| ==> a[i].status != Submitted) ==> TotalQuestions(a) == 0
  {
    FilterAppend(a, b, IsSubmitted);
    SumAppend(CompletedSessions(a), CompletedSessions(b), QuestionsOf);
    FilterAllOrNone(a, IsSubmitted);
  }

  /** A single completed session counts its own questions. */
  lemma TotalOfOne(s: SessionSummary)
    ensures TotalQuestions([s]) == if s.status == Submitted then QuestionsOf(s) else 0
  {
    assert [s][1..] == [];
    assert CompletedSessions([s]) == (if s.status == Submitted then [s] else []);
    assert Sum([s], QuestionsOf) == QuestionsOf(s) + Sum([], QuestionsOf);
  }

  /** How many questions of each subject an exam contains, as announced on
      the exam card. */
  function ExamQuestionsFor(subjectCode: string): (n: nat)
    ensures n == 5 <==> subjectCode == "OS" || subjectCode == "DBMS"
    ensures n == 4 || n == 5
  {
    if subjectCode == "OS" then 5 else if subjectCode == "DBMS" then 5 else 4
  }

  // ---------------------------------------------------------------------------
  // Practice configuration and the create request

  const MinQuestions: nat := 3
  const MaxQuestions: nat := 14
  const DefaultQuestions: nat := 10

  /** The practice card's selectors; the empty string means "any". */
  datatype PracticeConfig = PracticeConfig(subject: string, difficulty: string, questionCount: nat)

  predicate ValidConfig(c: PracticeConfig) {
    MinQuestions <= c.questionCount <= MaxQuestions
  }

  /** The card opens with both selectors on "any" and 10 questions. */
  function InitialConfig(): (c: PracticeConfig)
    ensures ValidConfig(c)
    ensures c.subject == "" && c.difficulty == "" && c.questionCount == DefaultQuestions
  {
    PracticeConfig("", "", DefaultQuestions)
  }

  /** Moving the question-count slider; the range input only yields values
      between its bounds, which is expressed as a clamp. */
  function SetQuestionCount(c: PracticeConfig, v: int): (r: PracticeConfig)
    ensures ValidConfig(r)
    ensures r.subject == c.subject && r.difficulty == c.difficulty
    ensures MinQuestions <= v <= MaxQuestions ==> r.questionCount == v
  {
    var n := if v < MinQuestions then MinQuestions else if v > MaxQuestions then MaxQuestions else v;
    c.(questionCount := n)
  }

  datatype CreateRequest = CreateRequest(
    mode: SessionMode,
    subjectCode: Option<string>,
    difficulty: Option<string>,
    questionCount: Option<nat>)

  /** The body sent to create a practice session: an empty selector is sent
      as absent. */
  function PracticeRequest(c: PracticeConfig): (r: CreateRequest)
    ensures r.mode == Practice
    ensures r.subjectCode.None? <==> c.subject == ""
    ensures r.subjectCode.Some? ==> r.subjectCode.value == c.subject
    ensures r.difficulty.None? <==> c.difficulty == ""
    ensures r.difficulty.Some? ==> r.difficulty.value == c.difficulty
    ensures r.questionCount == Some(c.questionCount)
  {
    CreateRequest(
      Practice,
      if c.subject == "" then None else Some(c.subject),
      if c.difficulty == "" then None else Some(c.difficulty),
      Some(c.questionCount))
  }

  /** The body sent to create an exam carries only the mode. */
  function ExamRequest(): (r: CreateRequest)
    ensures r.mode == Exam && r.subjectCode.None? && r.difficulty.None? && r.questionCount.None?
  {
    CreateRequest(Exam, None, None, None)
  }

  /** Starting practice without touching the card asks for 10 questions of
      any subject and any difficulty. */
  lemma UntouchedCardRequest()
    ensures PracticeRequest(InitialConfig()) == CreateRequest(Practice, None, None, Some(10))
  {
  }

  /** Every configuration the card can reach asks for between 3 and 14
      questions. */
  lemma RequestedCountInRange(c: PracticeConfig, moves: seq<int>)
    requires ValidConfig(c)
    ensures var r := PracticeRequest(ApplySlider(c, moves));
      MinQuestions <= r.questionCount.value <= MaxQuestions
  {
  }

  function ApplySlider(c: PracticeConfig, moves: seq<int>): (r: PracticeConfig)
    requires ValidConfig(c)
    ensures ValidConfig(r)
    decreases |moves|
  {
    if |moves| == 0 then c else ApplySlider(SetQuestionCount(c, moves[0]), moves[1..])
  }

  /** Clicking a recent-session row: submitted sessions open their results
      page, others do nothing. The result is the path navigated to. */
  function RowClick(s: SessionSummary): (r: Option<Path>)
    ensures r.Some? <==> s.status == Submitted
    ensures r.Some? ==> r.value == ["results", s.id]
  {
    if s.status == Submitted then Some(["results", s.id]) else None
  }

  /** A signed-in student clicking a submitted row is shown the results of
      that very session. */
  lemma RowOpensResults(s: SessionSummary)
    requires s.status == Submitted && s.id != ""
    ensures RowClick(s).Some? && Resolve(RowClick(s).value, true) == Render(ResultsPage(s.id))
  {
  }
}

=== FILE: decimal.dfy ===
/** Decimal rendering of naturals, as JavaScript's `String(n)` and
    `String(n).padStart(2, '0')` produce it, and the reading that inverts it. */
module Decimal {

  predicate IsDigit(c: char) {
    '0' <= c <= '9'
  }

  predicate AllDigits(s: string) {
    forall i :: 0 <= i < |s| ==> IsDigit(s[i])
  }

  function DigitChar(d: nat): (c: char)
    requires d < 10
    ensures IsDigit(c)
  {
    ('0' as int + d) as char
  }

  function DigitValue(c: char): nat {
    if IsDigit(c) then (c as int - '0' as int) else 0
  }

  /** `String(n)` for a natural: its decimal digits, most significant first,
      with no leading zero. */
  function Show(n: nat): (r: string)
    ensures 1 <= |r|
    ensures AllDigits(r)
    ensures |r| == 1 <==> n < 10
    ensures r[0] == '0' ==> n == 0
  {
    if n < 10 then [DigitChar(n)] else Show(n / 10) + [DigitChar(n % 10)]
  }

  /** The value of a string of decimal digits (the empty string reads as 0). */
  function Read(s: string): nat {
    if |s| == 0 then 0 else Read(s[..|s| - 1]) * 10 + DigitValue(s[|s| - 1])
  }

  /** Reading back what `Show` wrote gives the number. */
  lemma {:induction false} ReadShow(n: nat)
    ensures Read(Show(n)) == n
  {
    if n >= 10 {
      var s := Show(n / 10) + [DigitChar(n % 10)];
      assert s[..|s| - 1] == Show(n / 10);
      ReadShow(n / 10);
    }
  }

  /** `String(n).padStart(2, '0')`: a single digit gets a leading zero,
      longer renderings are left alone. */
  function Pad2(n: nat): (r: string)
    ensures AllDigits(r)
    ensures n < 100 ==> |r| == 2
    ensures Read(r) == n
  {
    ReadShow(n);
    if n < 10 then ['0'] + Show(n) else Show(n)
  }
}

=== FILE: durations.dfy ===
/** The two duration renderings of the client: the exam countdown clock
    (`h:mm:ss` / `mm:ss`) and the `Xm Ys` elapsed-time label that the results
    page and the dashboard each define identically. Both are given a parser
    that reads the fields back, so that their contracts say what the text
    means rather than how it is assembled. */
module Durations {
  import opened Types
  import opened Decimal

  /** The exam header clock. Whole hours are shown only when there is at
      least one; minutes and seconds are always two digits. */
  function Clock(seconds: nat): (r: string)
    ensures |r| >= 5
    ensures |r| == 5 <==> seconds < 3600
  {
    ClockArithmetic(seconds);
    ClockText(seconds / 3600, (seconds % 3600) / 60, seconds % 60)
  }

  /** The clock text for given hours, minutes and seconds fields. */
  function ClockText(h: nat, m: nat, s: nat): (r: string)
    requires m < 60 && s < 60
    ensures |r| >= 5
    ensures |r| == 5 <==> h == 0
  {
    var mmss := Pad2(m) + ":" + Pad2(s);
    if h > 0 then Show(h) + ":" + mmss else mmss
  }

  /** Fields of a clock reading: hours (0 when not shown), minutes, seconds. */
  datatype ClockFields = ClockFields(hours: nat, minutes: nat, seconds: nat)

  /** Reads a two-digit `mm:ss` field pair. */
  function ParseMinutesSeconds(tail: string): Option<(nat, nat)> {
    if |tail| == 5 && tail[2] == ':' && AllDigits(tail[..2]) && AllDigits(tail[3..])
    then Some((Read(tail[..2]), Read(tail[3..])))
    else None
  }

  /** Reads `h:mm:ss` or `mm:ss` back into its fields; `None` for any other
      shape. */
  function ParseClock(t: string): Option<ClockFields> {
    if |t| < 5 then None
    else
      match ParseMinutesSeconds(t[|t| - 5..])
      case None => None
      case Some((m, s)) =>
        if |t| == 5 then Some(ClockFields(0, m, s))
        else if |t| >= 7 && t[|t| - 6] == ':' && AllDigits(t[..|t| - 6]) then
          Some(ClockFields(Read(t[..|t| - 6]), m, s))
        else None
  }

  /** Splitting seconds into hours, minutes below 60 and seconds below 60;
      the hour field is positive exactly from one hour. */
  lemma ClockArithmetic(seconds: nat)
    ensures (seconds % 3600) / 60 < 60
    ensures (seconds / 3600) * 3600 + ((seconds % 3600) / 60) * 60 + seconds % 60 == seconds
    ensures seconds / 3600 > 0 <==> seconds >= 3600
  {
    var r := seconds % 3600;
    assert seconds == (seconds / 3600) * 3600 + r;
    assert r == (r / 60) * 60 + r % 60;
    assert r % 60 == seconds % 60 by {
      assert seconds == (seconds / 3600) * 60 * 60 + r;
    }
  }

  /** The parser recovers the fields of `mm:ss`. */
  lemma ParseShortClock(mm: string, ss: string)
    requires |mm| == 2 && |ss| == 2 && AllDigits(mm) && AllDigits(ss)
    ensures ParseMinutesSeconds(mm + ":" + ss) == Some((Read(mm), Read(ss)))
    ensures ParseClock(mm + ":" + ss) == Some(ClockFields(0, Read(mm), Read(ss)))
  {
    var t := mm + ":" + ss;
    assert t[..2] == mm && t[3..] == ss;
    assert t[|t| - 5..] == t;
  }

  /** The parser recovers the fields of `h:mm:ss`. */
  lemma ParseLongClock(h: string, mm: string, ss: string)
    requires |h| > 0 && AllDigits(h)
    requires |mm| == 2 && |ss| == 2 && AllDigits(mm) && AllDigits(ss)
    ensures ParseClock(h + ":" + (mm + ":" + ss)) == Some(ClockFields(Read(h), Read(mm), Read(ss)))
  {
    var tail := mm + ":" + ss;
    ParseShortClock(mm, ss);
    var t := h + ":" + tail;
    assert t[|t| - 5..] == tail;
    assert t[|t| - 6] == ':';
    assert t[..|t| - 6] == h;
  }

  /** The parser reads back the fields the clock text was built from. */
  lemma ClockTextParses(h: nat, m: nat, s: nat)
    requires m < 60 && s < 60
    ensures ParseClock(ClockText(h, m, s)) == Some(ClockFields(h, m, s))
  {
    if h > 0 {
      ReadShow(h);
      ParseLongClock(Show(h), Pad2(m), Pad2(s));
    } else {
      ParseShortClock(Pad2(m), Pad2(s));
    }
  }

  /** The clock shows exactly the remaining time: its fields recombine to
      `seconds`, minutes and seconds stay below 60, and an hour field appears
      only when the time is at least an hour. */
  lemma ClockReadsBack(seconds: nat)
    ensures ParseClock(Clock(seconds)).Some?
    ensures var f := ParseClock(Clock(seconds)).value;
      && f.hours * 3600 + f.minutes * 60 + f.seconds == seconds
      && f.minutes < 60 && f.seconds < 60
      && (f.hours > 0 <==> seconds >= 3600)
  {
    ClockArithmetic(seconds);
    ClockTextParses(seconds / 3600, (seconds % 3600) / 60, seconds % 60);
  }

  /** The elapsed-time label: an em dash when the time is absent or zero,
      otherwise whole minutes and leftover seconds. */
  function MinSec(seconds: Option<nat>): (r: string)
    ensures r == "—" <==> seconds.None? || seconds.value == 0
  {
    if seconds.None? || seconds.value == 0 then "—"
    else
      var m := seconds.value / 60;
      var s := seconds.value % 60;
      Show(m) + "m " + Show(s) + "s"
  }

  /** Position of the first non-digit of `t`, or `|t|`. */
  function DigitRun(t: string): (k: nat)
    ensures k <= |t|
    ensures AllDigits(t[..k])
    ensures k < |t| ==> !IsDigit(t[k])
  {
    if |t| == 0 || !IsDigit(t[0]) then 0
    else
      var k := 1 + DigitRun(t[1..]);
      assert forall i :: 1 <= i < k ==> t[..k][i] == t[1..][..k - 1][i - 1];
      k
  }

  lemma {:induction false} DigitRunOfDigits(d: string, rest: string)
    requires AllDigits(d)
    requires |rest| > 0 && !IsDigit(rest[0])
    ensures DigitRun(d + rest) == |d|
  {
    if |d| > 0 {
      assert (d + rest)[1..] == d[1..] + rest;
      DigitRunOfDigits(d[1..], rest);
    } else {
      assert d + rest == rest;
    }
  }

  /** Reads `Xm Ys` back into (minutes, seconds); the dash and any other shape
      give `None`. */
  function ParseMinSec(t: string): Option<(nat, nat)> {
    var k := DigitRun(t);
    if 0 < k && k + 4 <= |t| && t[k..k + 2] == "m " && t[|t| - 1] == 's'
       && AllDigits(t[k + 2..|t| - 1]) && |t[k + 2..|t| - 1]| > 0
    then Some((Read(t[..k]), Read(t[k + 2..|t| - 1])))
    else None
  }

  /** The parser accepts a label whose pieces are where it looks for them. */
  lemma ParseMinSecParts(t: string, a: string, b: string)
    requires 0 < |a| && DigitRun(t) == |a| && |a| + 4 <= |t|
    requires t[..|a|] == a && t[|a|..|a| + 2] == "m " && t[|t| - 1] == 's'
    requires t[|a| + 2..|t| - 1] == b && 0 < |b| && AllDigits(b)
    ensures ParseMinSec(t) == Some((Read(a), Read(b)))
  {
  }

  /** The parser splits `<digits>m <digits>s` at its markers. */
  lemma ParseMinSecDigits(a: string, b: string)
    requires 0 < |a| && AllDigits(a) && 0 < |b| && AllDigits(b)
    ensures ParseMinSec(a + ("m " + (b + "s"))) == Some((Read(a), Read(b)))
  {
    var rest := "m " + (b + "s");
    var t := a + rest;
    var k := |a|;
    assert DigitRun(t) == k by { DigitRunOfDigits(a, rest); }
    assert t[..k] == a;
    assert t[k..k + 2] == "m " by { assert rest[..2] == "m "; }
    assert t[k + 2..|t| - 1] == b by { assert rest[2..|rest| - 1] == b; }
    ParseMinSecParts(t, a, b);
  }

  /** The parser reads back the minutes and seconds a label was built from. */
  lemma ParseMinSecText(m: nat, s: nat)
    ensures ParseMinSec(Show(m) + "m " + Show(s) + "s") == Some((m, s))
  {
    ParseMinSecDigits(Show(m), Show(s));
    assert Show(m) + "m " + Show(s) + "s" == Show(m) + ("m " + (Show(s) + "s"));
    ReadShow(m);
    ReadShow(s);
  }

  /** A positive duration is labelled with minutes and seconds that recombine
      to it, the seconds below 60; an absent or zero one reads as nothing. */
  lemma MinSecReadsBack(seconds: Option<nat>)
    ensures seconds.None? || seconds.value == 0 ==> ParseMinSec(MinSec(seconds)).None?
    ensures seconds.Some? && seconds.value > 0 ==>
      && ParseMinSec(MinSec(seconds)).Some?
      && var (m, s) := ParseMinSec(MinSec(seconds)).value;
         m * 60 + s == seconds.value && s < 60
  {
    if seconds.None? || seconds.value == 0 {
      assert DigitRun("—") == 0;
    } else {
      ParseMinSecText(seconds.value / 60, seconds.value % 60);
    }
  }
}

=== FILE: exam.dfy ===
/** The timed exam page (src/pages/ExamModePage.tsx): the local answer buffer
    and its updates, the attempt sent when leaving a question, the answered
    counters, the section navigator, the countdown and Prev/Next navigation. */
module ExamMode {
  import opened Types
  import opened Seqs
  import opened Selection

  /** One buffered answer, keyed by session-question id. */
  datatype Answer = Answer(selectedOptionIds: seq<Id>, natResponse: Option<real>, isSkipped: bool)

  type Answers = map<Id, Answer>

  /** `after` differs from `before` at most in the entry for `id`, which it has. */
  predicate OnlyEntryChanged(before: Answers, after: Answers, id: Id) {
    && after.Keys == before.Keys + {id}
    && forall k :: k in before && k != id ==> after[k] == before[k]
  }

  /** The options currently selected for `id` (none when it has no entry). */
  function SelectedOf(answers: Answers, id: Id): seq<Id> {
    if id in answers then answers[id].selectedOptionIds else []
  }

  /** The numerical response an entry carries over when it is rewritten by
      spreading the previous entry (none when there was no entry). */
  function NatOf(answers: Answers, id: Id): Option<real> {
    if id in answers then answers[id].natResponse else None
  }

  // ---------------------------------------------------------------------------
  // Answer updates

  /** Clicking option `opt` of an MCQ question. */
  function SelectSingle(answers: Answers, id: Id, opt: Id): (r: Answers)
    ensures OnlyEntryChanged(answers, r, id)
    ensures forall x :: x in SelectedOf(r, id) <==> x == opt
    ensures |SelectedOf(r, id)| == 1
    ensures !r[id].isSkipped
    ensures r[id].natResponse == NatOf(answers, id)
  {
    answers[id := Answer([opt], NatOf(answers, id), false)]
  }

  /** Clicking option `opt` of a MULTI question. */
  function ToggleMulti(answers: Answers, id: Id, opt: Id): (r: Answers)
    ensures OnlyEntryChanged(answers, r, id)
    ensures opt in SelectedOf(r, id) <==> opt !in SelectedOf(answers, id)
    ensures forall x :: x != opt ==> (x in SelectedOf(r, id) <==> x in SelectedOf(answers, id))
    ensures NoDup(SelectedOf(answers, id)) ==> NoDup(SelectedOf(r, id))
    ensures !r[id].isSkipped
    ensures r[id].natResponse == NatOf(answers, id)
  {
    answers[id := Answer(Toggle(SelectedOf(answers, id), opt), NatOf(answers, id), false)]
  }

  /** Typing into the numerical-answer box; `v` is what the input parsed to.
      The source clears the option selection here. */
  function EnterNumber(answers: Answers, id: Id, v: real): (r: Answers)
    ensures OnlyEntryChanged(answers, r, id)
    ensures SelectedOf(r, id) == []
    ensures r[id].natResponse == Some(v) && !r[id].isSkipped
  {
    answers[id := Answer([], Some(v), false)]
  }

  // ---------------------------------------------------------------------------
  // Synchronisation of the question being left

  /** The attempt posted for `sq` when the student navigates away from it or
      submits: the buffered entry, with the skip flag derived from the option
      selection alone. */
  function SyncPayload(answers: Answers, sq: SessionQuestion): (r: AttemptPayload)
    ensures r.sessionQuestionId == sq.id && r.mode == Exam && r.hintsUsed.None?
    ensures r.selectedOptionIds.Some? <==> sq.id in answers
    ensures sq.id in answers ==> r.selectedOptionIds == Some(answers[sq.id].selectedOptionIds)
    ensures r.isSkipped <==> r.selectedOptionIds.None? || |r.selectedOptionIds.value| == 0
    ensures r.natResponse == NatOf(answers, sq.id)
  {
    if sq.id in answers then
      var a := answers[sq.id];
      AttemptPayload(sq.id, Exam, Some(a.selectedOptionIds), a.natResponse, None, |a.selectedOptionIds| == 0)
    else
      AttemptPayload(sq.id, Exam, None, None, None, true)
  }

  /** A numerical answer is sent as skipped: the entry it creates has no
      selected option, so the derived flag is set even though a number is
      carried. */
  lemma NumberIsSyncedAsSkipped(answers: Answers, sq: SessionQuestion, v: real)
    ensures SyncPayload(EnterNumber(answers, sq.id, v), sq).isSkipped
    ensures SyncPayload(EnterNumber(answers, sq.id, v), sq).natResponse == Some(v)
  {
  }

  /** An option click always makes the synced attempt non-skipped. */
  lemma SelectionIsSyncedAsAnswered(answers: Answers, sq: SessionQuestion, opt: Id)
    ensures !SyncPayload(SelectSingle(answers, sq.id, opt), sq).isSkipped
    ensures opt !in SelectedOf(answers, sq.id) ==> !SyncPayload(ToggleMulti(answers, sq.id, opt), sq).isSkipped
  {
    var r := ToggleMulti(answers, sq.id, opt);
    if opt !in SelectedOf(answers, sq.id) {
      assert opt in SelectedOf(r, sq.id);
    }
  }

  // ---------------------------------------------------------------------------
  // Answered counters

  /** Entries the header counts as answered: those with a selected option. */
  function CountedIds(answers: Answers): (ids: set<Id>)
    ensures ids <= answers.Keys
    ensures forall id :: id in ids <==> id in answers && |answers[id].selectedOptionIds| > 0
  {
    set id | id in answers.Keys && |answers[id].selectedOptionIds| > 0
  }

  /** The `answered` figure in the header and the confirmation dialog. */
  function AnsweredCount(answers: Answers): (n: nat)
    ensures n <= |answers|
  {
    var ids := CountedIds(answers);
    assert ids <= answers.Keys;
    Cardinality(ids, answers.Keys);
    |ids|
  }

  lemma Cardinality(a: set<Id>, b: set<Id>)
    requires a <= b
    ensures |a| <= |b|
  {
    assert b == a + (b - a);
  }

  /** The navigator's "answered" shading: a selected option or any
      numerical response. */
  predicate IsAnswered(answers: Answers, id: Id) {
    id in answers && (|answers[id].selectedOptionIds| > 0 || answers[id].natResponse.Some?)
  }

  /** Every counted entry is shaded answered, so the header never shows more
      than the navigator. */
  lemma CountedAreShadedAnswered(answers: Answers)
    ensures forall id :: id in CountedIds(answers) ==> IsAnswered(answers, id)
    ensures AnsweredCount(answers) <= |set id | id in answers.Keys && IsAnswered(answers, id)|
  {
    Cardinality(CountedIds(answers), set id | id in answers.Keys && IsAnswered(answers, id));
  }

  /** Entering a number takes the question out of the counted entries and
      leaves the others as they were. */
  lemma CountedAfterNumber(answers: Answers, id: Id, v: real)
    ensures CountedIds(EnterNumber(answers, id, v)) == CountedIds(answers) - {id}
  {
    var r := EnterNumber(answers, id, v);
    forall k ensures k in CountedIds(r) <==> k in CountedIds(answers) - {id} {
      if k != id && k in answers { assert r[k] == answers[k]; }
    }
  }

  lemma RemoveOne(a: set<Id>, x: Id)
    ensures |a - {x}| == |a| - (if x in a then 1 else 0)
  {
    if x in a {
      assert a == (a - {x}) + {x};
    } else {
      assert a - {x} == a;
    }
  }

  /** Entering a number shades the question answered in the navigator but
      removes it from the header count. */
  lemma NumberShadedButNotCounted(answers: Answers, id: Id, v: real)
    ensures IsAnswered(EnterNumber(answers, id, v), id)
    ensures id !in CountedIds(EnterNumber(answers, id, v))
    ensures AnsweredCount(EnterNumber(answers, id, v))
         == AnsweredCount(answers) - (if id in CountedIds(answers) then 1 else 0)
  {
    CountedAfterNumber(answers, id, v);
    RemoveOne(CountedIds(answers), id);
  }

  /** An MCQ click puts the question among the counted entries and leaves
      the others as they were. */
  lemma CountedAfterSelect(answers: Answers, id: Id, opt: Id)
    ensures CountedIds(SelectSingle(answers, id, opt)) == CountedIds(answers) + {id}
  {
    var r := SelectSingle(answers, id, opt);
    forall k ensures k in CountedIds(r) <==> k in CountedIds(answers) + {id} {
      if k != id && k in answers { assert r[k] == answers[k]; }
    }
  }

  lemma AddOne(a: set<Id>, x: Id)
    ensures |a + {x}| == |a| + (if x in a then 0 else 1)
  {
    if x in a {
      assert a + {x} == a;
    }
  }

  /** An MCQ click adds the question to the header count unless it was
      already counted. */
  lemma SelectSingleCounted(answers: Answers, id: Id, opt: Id)
    ensures id in CountedIds(SelectSingle(answers, id, opt))
    ensures AnsweredCount(SelectSingle(answers, id, opt))
         == AnsweredCount(answers) + (if id in CountedIds(answers) then 0 else 1)
  {
    CountedAfterSelect(answers, id, opt);
    AddOne(CountedIds(answers), id);
  }

  // ---------------------------------------------------------------------------
  // Countdown

  /** The remaining time when the page loads: the session's duration, an
      hour when the backend gives none. */
  function InitialTimeLeft(duration: Option<nat>): (t: nat)
    ensures duration.Some? ==> t == duration.value
    ensures duration.None? ==> t == 3600
  {
    Coalesce(duration, 3600)
  }

  datatype TickResult = TickResult(timeLeft: nat, autoSubmit: bool)

  /** One second of the countdown: at one second or less the timer stops at
      zero and the exam is submitted automatically. */
  function CountdownTick(t: nat): (r: TickResult)
    ensures r.autoSubmit <==> t <= 1
    ensures r.autoSubmit ==> r.timeLeft == 0
    ensures t > 0 ==> r.timeLeft < t
    ensures !r.autoSubmit ==> r.timeLeft + 1 == t
  {
    if t <= 1 then TickResult(0, true) else TickResult(t - 1, false)
  }

  /** Runs the countdown from `start` until it submits: the exam is submitted
      after exactly `start` ticks (one tick when it starts at zero), and the
      time shown never increases on the way. */
  method RunCountdown(start: nat) returns (ticks: nat, shown: seq<nat>)
    ensures ticks == if start == 0 then 1 else start
    ensures |shown| == ticks && shown[ticks - 1] == 0
    ensures forall i :: 0 <= i < ticks - 1 ==> shown[i] == start - 1 - i && shown[i] > 0
  {
    var t := start;
    var done := false;
    ticks := 0;
    shown := [];
    while !done
      invariant |shown| == ticks
      invariant !done ==> t == start - ticks && (ticks < start || (start == 0 && ticks == 0))
      invariant done ==> ticks == (if start == 0 then 1 else start) && t == 0 && shown[ticks - 1] == 0
      invariant forall i :: 0 <= i < ticks && (!done || i < ticks - 1) ==> shown[i] == start - 1 - i && shown[i] > 0
      decreases t + (if done then 0 else 1)
    {
      var r := CountdownTick(t);
      t := r.timeLeft;
      done := r.autoSubmit;
      shown := shown + [t];
      ticks := ticks + 1;
    }
  }

  datatype Urgency = Calm | Warning | Critical

  function UrgencyRank(u: Urgency): nat {
    match u
    case Calm => 0
    case Warning => 1
    case Critical => 2
  }

  /** The clock colour: critical under five minutes, a warning under ten. */
  function TimerUrgency(t: nat): (u: Urgency)
    ensures u == Critical <==> t < 300
    ensures u == Calm <==> t >= 600
  {
    if t < 300 then Critical else if t < 600 then Warning else Calm
  }

  /** Less time left is never less urgent, so a running countdown only
      escalates. */
  lemma UrgencyEscalates(t1: nat, t2: nat)
    requires t1 <= t2
    ensures UrgencyRank(TimerUrgency(t1)) >= UrgencyRank(TimerUrgency(t2))
    ensures UrgencyRank(TimerUrgency(CountdownTick(t2).timeLeft)) >= UrgencyRank(TimerUrgency(t2))
  {
  }

  // ---------------------------------------------------------------------------
  // Prev / Next / navigator

  /** Position of the first question with id `id`, or -1 (`findIndex`). */
  function FindIndex(qs: seq<SessionQuestion>, id: Id): (r: int)
    ensures -1 <= r < |qs|
    ensures r >= 0 ==> qs[r].id == id && forall j :: 0 <= j < r ==> qs[j].id != id
    ensures r == -1 <==> forall j :: 0 <= j < |qs| ==> qs[j].id != id
  {
    if |qs| == 0 then -1
    else if qs[0].id == id then 0
    else
      var k := FindIndex(qs[1..], id);
      if k == -1 then -1 else k + 1
  }

  datatype NavAction = Previous | Next | JumpTo(sqId: Id)

  /** A navigation either is unavailable, opens the submit confirmation, or
      syncs the current question and moves to a new index. */
  datatype NavOutcome = Unavailable | ConfirmSubmit | Move(sync: AttemptPayload, newIndex: int)

  function Navigate(qs: seq<SessionQuestion>, answers: Answers, index: nat, action: NavAction): (r: NavOutcome)
    requires index < |qs|
    ensures r.Move? ==> r.sync == SyncPayload(answers, qs[index]) && r.newIndex < |qs|
    ensures action == Previous ==> (r.Unavailable? <==> index == 0) && (r.Move? ==> r.newIndex + 1 == index)
    ensures action == Previous && index > 0 ==> r.Move?
    ensures action == Next ==> (r.ConfirmSubmit? <==> index + 1 == |qs|) && (r.Move? ==> r.newIndex == index + 1)
    ensures action == Next && index + 1 < |qs| ==> r.Move?
    ensures action.JumpTo? ==> r.Move? && (r.newIndex == -1 <==> forall j :: 0 <= j < |qs| ==> qs[j].id != action.sqId)
    ensures action.JumpTo? && r.Move? && r.newIndex >= 0 ==>
      qs[r.newIndex].id == action.sqId && forall j :: 0 <= j < r.newIndex ==> qs[j].id != action.sqId
  {
    var sync := SyncPayload(answers, qs[index]);
    match action
    case Previous => if index == 0 then Unavailable else Move(sync, index - 1)
    case Next => if index < |qs| - 1 then Move(sync, index + 1) else ConfirmSubmit
    case JumpTo(id) => Move(sync, FindIndex(qs, id))
  }

  /** The index shown after a navigation outcome: a move changes it only
      when the sync of the question being left succeeds, since a failed
      sync throws before the index is set. */
  function IndexAfter(index: nat, r: NavOutcome, syncOk: bool): int {
    if r.Move? && syncOk then r.newIndex else index
  }

  /** A failed sync leaves the student on the question, whatever was
      clicked; a successful one lands where the navigation pointed. */
  lemma FailedSyncStays(qs: seq<SessionQuestion>, answers: Answers, index: nat, action: NavAction)
    requires index < |qs|
    ensures IndexAfter(index, Navigate(qs, answers, index, action), false) == index
    ensures action == Next && index + 1 < |qs| ==> IndexAfter(index, Navigate(qs, answers, index, action), true) == index + 1
    ensures action == Previous && index > 0 ==> IndexAfter(index, Navigate(qs, answers, index, action), true) == index - 1
  {
  }

  /** Every navigation offered by the page keeps the index within the
      question list: Prev/Next by their guards, a navigator button because it
      names a listed question. */
  lemma NavigationStaysInRange(qs: seq<SessionQuestion>, answers: Answers, index: nat, action: NavAction)
    requires index < |qs|
    requires action.JumpTo? ==> exists j :: 0 <= j < |qs| && qs[j].id == action.sqId
    ensures Navigate(qs, answers, index, action).Move? ==> 0 <= Navigate(qs, answers, index, action).newIndex < |qs|
  {
  }

  /** A navigator button lands on its own question when ids are distinct. */
  lemma JumpLandsOnListed(qs: seq<SessionQuestion>, answers: Answers, index: nat, j: nat)
    requires index < |qs| && j < |qs|
    requires forall a, b :: 0 <= a < b < |qs| ==> qs[a].id != qs[b].id
    ensures Navigate(qs, answers, index, JumpTo(qs[j].id)) == Move(SyncPayload(answers, qs[index]), j)
  {
  }
}

=== FILE: practice.dfy ===
/** The practice page (src/pages/PracticeModePage.tsx): one question at a
    time, with a per-question state that is reset whenever the current index
    changes, hints revealed one by one, immediate grading by the backend, and
    a navigator that only lets the student go back or revisit attempted
    questions. */
module PracticeMode {
  import opened Types
  import opened Seqs
  import opened Selection

  /** The page's state: the current index and the per-question fields. */
  datatype PracticeState = PracticeState(
    index: nat,
    selected: seq<Id>,
    natText: string,
    hintsShown: nat,
    result: Option<AttemptResult>,
    isSkipped: bool)

  /** The state on arriving at question `index`: the per-question fields at
      their initial values. */
  function Arrive(index: nat): PracticeState {
    PracticeState(index, [], "", 0, None, false)
  }

  /** The page opens on the first question. */
  function Initial(): PracticeState {
    Arrive(0)
  }

  /** Once the backend has answered, the question is locked. */
  predicate Attempted(st: PracticeState) {
    st.result.Some?
  }

  /** The index points at a question and no more hints are shown than that
      question has. */
  predicate Valid(st: PracticeState, qs: seq<SessionQuestion>) {
    st.index < |qs| && st.hintsShown <= qs[st.index].question.hintCount
  }

  function KindAt(st: PracticeState, qs: seq<SessionQuestion>): QuestionType
    requires st.index < |qs|
  {
    qs[st.index].question.kind
  }

  // ---------------------------------------------------------------------------
  // Answering

  /** Clicking option `opt`: ignored once attempted and for numerical
      questions; MCQ selects only `opt`; MULTI toggles it. Nothing but the
      selection ever changes. */
  function ClickOption(st: PracticeState, qs: seq<SessionQuestion>, opt: Id): (r: PracticeState)
    requires st.index < |qs|
    ensures r == st.(selected := r.selected)
    ensures Attempted(st) || KindAt(st, qs) == NAT ==> r == st
    ensures !Attempted(st) && KindAt(st, qs) == MCQ ==> r.selected == [opt]
    ensures !Attempted(st) && KindAt(st, qs) == MULTI ==>
      && (opt in r.selected <==> opt !in st.selected)
      && (forall x :: x != opt ==> (x in r.selected <==> x in st.selected))
      && (NoDup(st.selected) ==> NoDup(r.selected))
  {
    if Attempted(st) then st
    else match KindAt(st, qs)
      case MCQ => st.(selected := [opt])
      case MULTI => st.(selected := Toggle(st.selected, opt))
      case NAT => st
  }

  /** Typing into the numerical box; the box is disabled once attempted. */
  function EnterText(st: PracticeState, text: string): (r: PracticeState)
    ensures Attempted(st) ==> r == st
    ensures !Attempted(st) ==> r == st.(natText := text)
  {
    if Attempted(st) then st else st.(natText := text)
  }

  /** Whether the Submit button is enabled (apart from an in-flight request). */
  predicate CanSubmit(st: PracticeState, kind: QuestionType) {
    if kind == NAT then st.natText != "" else |st.selected| > 0
  }

  /** The attempt posted by Submit (`skip` false) or Skip (`skip` true), or
      `None` when the button is not available: both are hidden once the
      question is attempted, and Submit is disabled unless `CanSubmit`.
      `parsed` is the number the numerical text parses to. */
  function SubmitPayload(st: PracticeState, qs: seq<SessionQuestion>, skip: bool, parsed: real): (r: Option<AttemptPayload>)
    requires st.index < |qs|
    ensures r.Some? <==> !Attempted(st) && (skip || CanSubmit(st, KindAt(st, qs)))
    ensures r.Some? ==>
      && r.value.sessionQuestionId == qs[st.index].id
      && r.value.mode == Practice
      && r.value.isSkipped == skip
      && r.value.hintsUsed == Some(st.hintsShown)
      && (r.value.selectedOptionIds.Some? <==> KindAt(st, qs) != NAT)
      && (r.value.selectedOptionIds.Some? ==> r.value.selectedOptionIds.value == st.selected)
      && (r.value.natResponse.Some? <==> KindAt(st, qs) == NAT && st.natText != "")
      && (r.value.natResponse.Some? ==> r.value.natResponse.value == parsed)
  {
    if Attempted(st) || (!skip && !CanSubmit(st, KindAt(st, qs))) then None
    else
      var kind := KindAt(st, qs);
      Some(AttemptPayload(
        qs[st.index].id,
        Practice,
        if kind != NAT then Some(st.selected) else None,
        if kind == NAT && st.natText != "" then Some(parsed) else None,
        Some(st.hintsShown),
        skip))
  }

  /** Recording the backend's grading of the posted attempt. */
  function ReceiveResult(st: PracticeState, res: AttemptResult, skip: bool): (r: PracticeState)
    ensures Attempted(r) && r.isSkipped == skip
    ensures r.index == st.index && r.selected == st.selected && r.hintsShown == st.hintsShown
    ensures r.result == Some(res) && r.natText == st.natText
  {
    st.(result := Some(res), isSkipped := skip)
  }

  /** After the result arrives, clicks, typing and hint buttons change
      nothing, and neither Submit nor Skip can post again. */
  lemma LockedAfterResult(st: PracticeState, qs: seq<SessionQuestion>, res: AttemptResult, skip: bool,
                          opt: Id, text: string, again: bool, parsed: real)
    requires st.index < |qs|
    ensures var locked := ReceiveResult(st, res, skip);
      && ClickOption(locked, qs, opt) == locked
      && EnterText(locked, text) == locked
      && RevealHint(locked, qs) == locked
      && SubmitPayload(locked, qs, again, parsed).None?
  {
  }

  /** The lock lasts only while the question stays open: going back is
      always allowed, and arriving anew resets the state, so an earlier
      question answered on this visit can be posted again. */
  lemma EarlierQuestionReopens(st: PracticeState, qs: seq<SessionQuestion>, res: AttemptResult, skip: bool,
                               i: nat, parsed: real)
    requires st.index < |qs| && i < st.index
    ensures var back := JumpTo(ReceiveResult(st, res, skip), qs, i);
      && back == Arrive(i)
      && !Attempted(back)
      && SubmitPayload(back, qs, true, parsed).Some?
  {
  }

  /** The navigator reads the attempts the page loaded with: a later
      question without one stays out of reach, even when it has been
      answered since. */
  lemma ForwardGateUsesLoadedAttempts(st: PracticeState, qs: seq<SessionQuestion>, i: nat)
    requires st.index < i < |qs| && qs[i].attempt.None?
    ensures JumpTo(st, qs, i) == st
  {
  }

  // ---------------------------------------------------------------------------
  // Hints

  /** The "Reveal hint" button: present only for the next hidden hint and
      only before the question is attempted. */
  function RevealHint(st: PracticeState, qs: seq<SessionQuestion>): (r: PracticeState)
    requires st.index < |qs|
    ensures r == st.(hintsShown := r.hintsShown)
    ensures r.hintsShown == st.hintsShown || r.hintsShown == st.hintsShown + 1
    ensures r.hintsShown == st.hintsShown + 1 <==>
      !Attempted(st) && st.hintsShown < qs[st.index].question.hintCount
  {
    if !Attempted(st) && st.hintsShown < qs[st.index].question.hintCount
    then st.(hintsShown := st.hintsShown + 1)
    else st
  }

  /** Hint number `i` (from 0) is displayed. */
  predicate HintVisible(st: PracticeState, i: nat) {
    i < st.hintsShown
  }

  /** A reveal shows exactly the first hidden hint and hides nothing, and the
      count of shown hints never passes the number of hints. */
  lemma RevealShowsNextHint(st: PracticeState, qs: seq<SessionQuestion>)
    requires Valid(st, qs)
    ensures Valid(RevealHint(st, qs), qs)
    ensures forall i: nat :: HintVisible(st, i) ==> HintVisible(RevealHint(st, qs), i)
    ensures forall i: nat :: HintVisible(RevealHint(st, qs), i) && !HintVisible(st, i) ==> i == st.hintsShown
  {
  }

  // ---------------------------------------------------------------------------
  // Moving between questions

  /** `setCurrentIndex(i)`: the reset effect runs only when the index
      actually changes. */
  function GoTo(st: PracticeState, i: nat): PracticeState {
    if i == st.index then st else Arrive(i)
  }

  /** Changing the index clears every per-question field. */
  lemma IndexChangeResets(st: PracticeState, i: nat)
    requires i != st.index
    ensures GoTo(st, i).index == i
    ensures GoTo(st, i).selected == [] && GoTo(st, i).natText == ""
    ensures GoTo(st, i).hintsShown == 0 && !Attempted(GoTo(st, i)) && !GoTo(st, i).isSkipped
  {
  }

  datatype NextOutcome = ShowResults | Stay(next: PracticeState)

  /** The "Next Question" / "Finish Session" button, shown only once the
      current question is attempted. */
  function HandleNext(st: PracticeState, qs: seq<SessionQuestion>): (r: Option<NextOutcome>)
    requires st.index < |qs|
    ensures r.Some? <==> Attempted(st)
    ensures r.Some? ==> (r.value.ShowResults? <==> st.index + 1 == |qs|)
    ensures r.Some? && r.value.Stay? ==> r.value.next == Arrive(st.index + 1) && st.index + 1 < |qs|
  {
    if !Attempted(st) then None
    else if st.index == |qs| - 1 then Some(ShowResults)
    else Some(Stay(GoTo(st, st.index + 1)))
  }

  /** A navigator button: it moves to question `i` only if `i` is not ahead
      of the current one or question `i` was already attempted when the
      session was loaded. */
  function JumpTo(st: PracticeState, qs: seq<SessionQuestion>, i: nat): (r: PracticeState)
    requires i < |qs|
    ensures r.index == i || r == st
    ensures r.index != st.index ==> i < st.index || qs[i].attempt.Some?
    ensures i <= st.index || qs[i].attempt.Some? ==> r.index == i
    ensures r.index != st.index ==> r == Arrive(i)
    ensures i == st.index ==> r == st
  {
    if i <= st.index || qs[i].attempt.Some? then GoTo(st, i) else st
  }

  /** Every transition of the page keeps the state valid, so the index never
      reaches the number of questions and shown hints never exceed the
      question's hints. */
  lemma TransitionsKeepValid(st: PracticeState, qs: seq<SessionQuestion>, opt: Id, text: string,
                             res: AttemptResult, skip: bool, i: nat)
    requires Valid(st, qs)
    ensures Valid(Initial(), qs) <==> |qs| > 0
    ensures Valid(ClickOption(st, qs, opt), qs)
    ensures Valid(EnterText(st, text), qs)
    ensures Valid(ReceiveResult(st, res, skip), qs)
    ensures Valid(RevealHint(st, qs), qs)
    ensures HandleNext(st, qs).Some? && HandleNext(st, qs).value.Stay? ==> Valid(HandleNext(st, qs).value.next, qs)
    ensures i < |qs| ==> Valid(JumpTo(st, qs, i), qs)
  {
  }

  // ---------------------------------------------------------------------------
  // Option display

  datatype OptionLook = Chosen | Unchosen | RevealedCorrect | RevealedWrong | Muted

  /** How option `opt` is drawn: by selection before grading; afterwards an
      option the backend lists as correct is shown correct whether or not it
      was chosen, a chosen one that is not correct is shown wrong, and the
      rest are muted. */
  function LookOf(st: PracticeState, opt: Id): (r: OptionLook)
    ensures !Attempted(st) ==> (r == Chosen <==> opt in st.selected) && (r == Chosen || r == Unchosen)
    ensures Attempted(st) ==> (r == RevealedCorrect <==> opt in st.result.value.correctOptionIds)
    ensures r == RevealedWrong <==> Attempted(st) && opt in st.selected && opt !in st.result.value.correctOptionIds
    ensures r == Muted <==> Attempted(st) && opt !in st.selected && opt !in st.result.value.correctOptionIds
  {
    if !Attempted(st) then (if opt in st.selected then Chosen else Unchosen)
    else if opt in st.result.value.correctOptionIds then RevealedCorrect
    else if opt in st.selected then RevealedWrong
    else Muted
  }

  /** After grading, the options the backend lists are drawn correct, and a
      chosen option it does not list is drawn wrong. */
  lemma LookAfterGrading(st: PracticeState, res: AttemptResult, skip: bool, opt: Id)
    ensures var g := ReceiveResult(st, res, skip);
      && (LookOf(g, opt) == RevealedCorrect <==> opt in res.correctOptionIds)
      && (LookOf(g, opt) == RevealedWrong <==> opt in st.selected && opt !in res.correctOptionIds)
  {
  }

  /** Before grading, an MCQ click leaves exactly the clicked option drawn
      chosen, and a MULTI click flips how the clicked option is drawn. */
  lemma LookAfterClick(st: PracticeState, qs: seq<SessionQuestion>, opt: Id, other: Id)
    requires st.index < |qs| && !Attempted(st)
    ensures KindAt(st, qs) == MCQ ==> (LookOf(ClickOption(st, qs, opt), other) == Chosen <==> other == opt)
    ensures KindAt(st, qs) == MULTI ==>
      (LookOf(ClickOption(st, qs, opt), opt) == Chosen <==> LookOf(st, opt) == Unchosen)
  {
  }
}

=== FILE: results.dfy ===
/** The results page (src/pages/ResultsPage.tsx): the per-question status,
    the correct / wrong / skipped lists behind the summary figures, the
    accuracy colour, the marks sign and when an explanation is shown. */
module Results {
  import opened Types
  import opened Seqs

  datatype Status = Correct | Wrong | Skipped

  /** The status badge of one question: skipped without an attempt or when
      the attempt was a skip, otherwise correct when `isCorrect` is truthy
      and wrong in every other case, including an absent `isCorrect`. */
  function StatusOf(sq: SessionQuestion): (s: Status)
    ensures s == Skipped <==> sq.attempt.None? || sq.attempt.value.isSkipped
    ensures s == Correct <==> sq.attempt.Some? && !sq.attempt.value.isSkipped && sq.attempt.value.isCorrect == Some(true)
  {
    match sq.attempt
    case None => Skipped
    case Some(a) => if a.isSkipped then Skipped else if a.isCorrect == Some(true) then Correct else Wrong
  }

  /** Membership tests of the three summary lists. */
  predicate ListedCorrect(sq: SessionQuestion) {
    sq.attempt.Some? && sq.attempt.value.isCorrect == Some(true)
  }

  predicate ListedWrong(sq: SessionQuestion) {
    sq.attempt.Some? && sq.attempt.value.isCorrect == Some(false) && !sq.attempt.value.isSkipped
  }

  predicate ListedSkipped(sq: SessionQuestion) {
    sq.attempt.None? || sq.attempt.value.isSkipped
  }

  function CorrectList(qs: seq<SessionQuestion>): seq<SessionQuestion> {
    Filter(qs, ListedCorrect)
  }

  function WrongList(qs: seq<SessionQuestion>): seq<SessionQuestion> {
    Filter(qs, ListedWrong)
  }

  function SkippedList(qs: seq<SessionQuestion>): seq<SessionQuestion> {
    Filter(qs, ListedSkipped)
  }

  /** The questions whose badge is `s`, in order. */
  function WithStatus(qs: seq<SessionQuestion>, s: Status): seq<SessionQuestion> {
    Filter(qs, sq => StatusOf(sq) == s)
  }

  /** The skipped list is exactly the questions badged skipped, and the
      wrong list holds only questions badged wrong. */
  lemma ListsAgreeWithBadges(qs: seq<SessionQuestion>)
    ensures SkippedList(qs) == WithStatus(qs, Skipped)
    ensures forall sq :: sq in WrongList(qs) ==> StatusOf(sq) == Wrong
    ensures forall sq :: sq in WithStatus(qs, Correct) ==> sq in CorrectList(qs)
  {
    FilterCongruent(qs, ListedSkipped, sq => StatusOf(sq) == Skipped);
  }

  /** No question is listed both wrong and skipped, or both wrong and
      correct, and each list is at most as long as the question list. */
  lemma WrongIsDisjoint(qs: seq<SessionQuestion>)
    ensures forall sq :: sq in WrongList(qs) ==> sq !in SkippedList(qs) && sq !in CorrectList(qs)
    ensures |CorrectList(qs)| <= |qs| && |WrongList(qs)| <= |qs| && |SkippedList(qs)| <= |qs|
  {
  }

  /** The badges partition the questions: the three counts add up to the
      number of questions. */
  lemma {:induction false} BadgesPartition(qs: seq<SessionQuestion>)
    ensures |WithStatus(qs, Correct)| + |WithStatus(qs, Wrong)| + |WithStatus(qs, Skipped)| == |qs|
  {
    if |qs| > 0 {
      BadgesPartition(qs[1..]);
    }
  }

  /** An attempt that is neither skipped nor graded is badged wrong but is
      missing from the wrong list, so the summary's counts can fall short of
      the number of questions. */
  lemma UngradedAttemptIsUncounted(sq: SessionQuestion)
    requires sq.attempt.Some? && !sq.attempt.value.isSkipped && sq.attempt.value.isCorrect.None?
    ensures StatusOf(sq) == Wrong
    ensures !ListedWrong(sq) && !ListedCorrect(sq) && !ListedSkipped(sq)
  {
  }

  /** A skipped attempt that the backend nevertheless marked correct sits in
      both the correct and the skipped lists. */
  lemma SkippedCorrectCountedTwice(sq: SessionQuestion)
    requires sq.attempt.Some? && sq.attempt.value.isSkipped && sq.attempt.value.isCorrect == Some(true)
    ensures ListedCorrect(sq) && ListedSkipped(sq) && StatusOf(sq) == Skipped
  {
  }

  // ---------------------------------------------------------------------------
  // Display categories

  datatype Tone = Good | Middling | Poor

  function ToneRank(t: Tone): nat {
    match t
    case Poor => 0
    case Middling => 1
    case Good => 2
  }

  /** The accuracy colour: good from 70, middling from 40, poor below. */
  function ScoreColor(acc: real): (t: Tone)
    ensures t == Good <==> acc >= 70.0
    ensures t == Middling <==> 40.0 <= acc < 70.0
    ensures t == Poor <==> acc < 40.0
  {
    if acc >= 70.0 then Good else if acc >= 40.0 then Middling else Poor
  }

  /** A higher accuracy never gets a worse colour. */
  lemma ScoreColorMonotone(a: real, b: real)
    requires a <= b
    ensures ToneRank(ScoreColor(a)) <= ToneRank(ScoreColor(b))
  {
  }

  /** The colour of the marks column: green for marks gained, red for
      marks lost, grey for none. */
  datatype MarksTone = Gained | Lost | Nil

  function MarksRank(t: MarksTone): nat {
    match t
    case Lost => 0
    case Nil => 1
    case Gained => 2
  }

  /** The marks column: whether a `+` is prefixed, and its colour. A missing
      attempt or missing marks count as zero. */
  datatype MarksLook = MarksLook(plusSign: bool, tone: MarksTone)

  function Marks(a: Option<Attempt>): real {
    if a.Some? && a.value.marksAwarded.Some? then a.value.marksAwarded.value else 0.0
  }

  function MarksDisplay(a: Option<Attempt>): (r: MarksLook)
    ensures r.plusSign <==> Marks(a) > 0.0
    ensures r.tone == Gained <==> Marks(a) > 0.0
    ensures r.tone == Lost <==> Marks(a) < 0.0
    ensures r.tone == Nil <==> Marks(a) == 0.0
  {
    var m := Marks(a);
    MarksLook(m > 0.0, if m > 0.0 then Gained else if m < 0.0 then Lost else Nil)
  }

  /** More marks never get a worse colour, and keep the `+` once it
      appears. */
  lemma MarksDisplayMonotone(a: Option<Attempt>, b: Option<Attempt>)
    requires Marks(a) <= Marks(b)
    ensures MarksRank(MarksDisplay(a).tone) <= MarksRank(MarksDisplay(b).tone)
    ensures MarksDisplay(a).plusSign ==> MarksDisplay(b).plusSign
  {
  }

  /** A question without an attempt is shown as zero marks without a sign. */
  lemma NoAttemptShowsZero(sq: SessionQuestion)
    requires sq.attempt.None?
    ensures MarksDisplay(sq.attempt) == MarksLook(false, Nil)
  {
  }

  /** The explanation box: practice sessions only, for questions not badged
      correct, when the question has a non-empty explanation. */
  predicate ShowExplanation(mode: SessionMode, sq: SessionQuestion) {
    && mode == Practice
    && StatusOf(sq) != Correct
    && sq.question.explanation.Some?
    && sq.question.explanation.value != ""
  }

  /** Exams never show explanations, and neither do correct answers. */
  lemma ExplanationOnlyForPracticeMistakes(mode: SessionMode, sq: SessionQuestion)
    ensures ShowExplanation(mode, sq) ==> mode == Practice && (StatusOf(sq) == Wrong || StatusOf(sq) == Skipped)
    ensures mode == Exam ==> !ShowExplanation(mode, sq)
  {
  }
}

=== FILE: routes.dfy ===
/** The route table and its guards (src/App.tsx). A path is given as its
    list of segments: `/` is `[]`, `/exam/42` is `["exam", "42"]`. Private
    pages redirect a signed-out visitor to `/login`; the sign-in pages
    redirect a signed-in one to `/dashboard`; `/` and every unknown path
    redirect to `/dashboard`. */
module Routes {
  import opened Types

  type Path = seq<string>

  datatype Page =
    | LoginPage
    | RegisterPage
    | DashboardPage
    | PracticePage(sessionId: string)
    | ExamPage(sessionId: string)
    | ResultsPage(sessionId: string)

  datatype Resolution = Render(page: Page) | Redirect(to: Path)

  const LoginPath: Path := ["login"]
  const DashboardPath: Path := ["dashboard"]

  /** Pages wrapped in the private guard. */
  predicate IsPrivate(p: Page) {
    !(p.LoginPage? || p.RegisterPage?)
  }

  /** The path each page is served at. */
  function PathOf(p: Page): Path {
    match p
    case LoginPage => LoginPath
    case RegisterPage => ["register"]
    case DashboardPage => DashboardPath
    case PracticePage(id) => ["practice", id]
    case ExamPage(id) => ["exam", id]
    case ResultsPage(id) => ["results", id]
  }

  /** A page whose session id, if it has one, can stand in a path segment. */
  predicate Addressable(p: Page) {
    (p.PracticePage? || p.ExamPage? || p.ResultsPage?) ==> p.sessionId != ""
  }

  /** The page a path names, if any route matches it; a `:sessionId`
      parameter matches any non-empty segment. */
  function Match(path: Path): (r: Option<Page>)
    ensures r.Some? ==> PathOf(r.value) == path && Addressable(r.value)
  {
    if |path| == 1 then
      if path[0] == "login" then Some(LoginPage)
      else if path[0] == "register" then Some(RegisterPage)
      else if path[0] == "dashboard" then Some(DashboardPage)
      else None
    else if |path| == 2 && path[1] != "" then
      if path[0] == "practice" then Some(PracticePage(path[1]))
      else if path[0] == "exam" then Some(ExamPage(path[1]))
      else if path[0] == "results" then Some(ResultsPage(path[1]))
      else None
    else None
  }

  /** Every page is reached at its own path, so the route table is
      unambiguous and complete. */
  lemma MatchPathOf(p: Page)
    requires Addressable(p)
    ensures Match(PathOf(p)) == Some(p)
  {
  }

  /** What the router does with `path` for a visitor who is or is not
      signed in. */
  function Resolve(path: Path, authenticated: bool): (r: Resolution)
    ensures r.Render? && IsPrivate(r.page) ==> authenticated
    ensures r.Render? && !IsPrivate(r.page) ==> !authenticated
    ensures r.Redirect? ==> r.to == LoginPath || r.to == DashboardPath
    ensures r.Render? ==> Match(path) == Some(r.page)
    ensures r.Render? <==> Match(path).Some? && IsPrivate(Match(path).value) == authenticated
    ensures Match(path).None? ==> r == Redirect(DashboardPath)
    ensures Match(path).Some? && IsPrivate(Match(path).value) && !authenticated ==> r == Redirect(LoginPath)
    ensures Match(path).Some? && !IsPrivate(Match(path).value) && authenticated ==> r == Redirect(DashboardPath)
  {
    match Match(path)
    case None => Redirect(DashboardPath)
    case Some(p) =>
      if IsPrivate(p) then (if authenticated then Render(p) else Redirect(LoginPath))
      else (if authenticated then Redirect(DashboardPath) else Render(p))
  }

  /** Following redirects for at most `hops` steps; `None` when a redirect
      is still pending. */
  function Settle(path: Path, authenticated: bool, hops: nat): Option<Page>
    decreases hops
  {
    match Resolve(path, authenticated)
    case Render(p) => Some(p)
    case Redirect(to) => if hops == 0 then None else Settle(to, authenticated, hops - 1)
  }

  /** Every path ends on a page after at most two redirects: the dashboard
      for a signed-in visitor, the sign-in page for a signed-out one, unless
      the path itself names a page the visitor may see. */
  lemma SettlesWithinTwoHops(path: Path, authenticated: bool)
    ensures Settle(path, authenticated, 2).Some?
    ensures Resolve(path, authenticated).Redirect? ==>
      Settle(path, authenticated, 2) == Some(if authenticated then DashboardPage else LoginPage)
  {
    assert Match(LoginPath) == Some(LoginPage);
    assert Match(DashboardPath) == Some(DashboardPage);
  }

  /** A signed-out visitor at `/` goes to the dashboard, then to the sign-in
      page, which is shown. */
  lemma RootWhenSignedOut()
    ensures Resolve([], false) == Redirect(DashboardPath)
    ensures Resolve(DashboardPath, false) == Redirect(LoginPath)
    ensures Resolve(LoginPath, false) == Render(LoginPage)
  {
  }
}

=== FILE: sections.dfy ===
/** The exam navigator's grouping of questions by section
    (src/pages/ExamModePage.tsx): a left fold that appends each question to
    the section named by its `sectionName`, opening the section on first
    sight. Sections are kept in order of first appearance. */
module ExamSections {
  import opened Types

  datatype Section = Section(name: string, members: seq<SessionQuestion>)

  /** The section a question belongs to; unnamed questions go to `General`. */
  function SectionOf(sq: SessionQuestion): string {
    Coalesce(sq.sectionName, "General")
  }

  /** The questions of `qs` belonging to section `name`, in their order. */
  function InSection(qs: seq<SessionQuestion>, name: string): (r: seq<SessionQuestion>)
    ensures |r| <= |qs|
    ensures forall x :: x in r <==> x in qs && SectionOf(x) == name
  {
    if |qs| == 0 then []
    else
      var last := qs[|qs| - 1];
      InSection(qs[..|qs| - 1], name) + (if SectionOf(last) == name then [last] else [])
  }

  /** Index of the section called `name`, or -1. */
  function FindSection(secs: seq<Section>, name: string): (i: int)
    ensures -1 <= i < |secs|
    ensures i >= 0 ==> secs[i].name == name
    ensures i == -1 <==> forall j :: 0 <= j < |secs| ==> secs[j].name != name
  {
    if |secs| == 0 then -1
    else if secs[|secs| - 1].name == name then |secs| - 1
    else FindSection(secs[..|secs| - 1], name)
  }

  /** One step of the fold. */
  function AddToSections(secs: seq<Section>, sq: SessionQuestion): seq<Section> {
    var name := SectionOf(sq);
    var i := FindSection(secs, name);
    if i >= 0 then secs[i := Section(name, secs[i].members + [sq])]
    else secs + [Section(name, [sq])]
  }

  /** `questions.reduce(...)` over the whole list. */
  function GroupSections(qs: seq<SessionQuestion>): seq<Section> {
    if |qs| == 0 then [] else AddToSections(GroupSections(qs[..|qs| - 1]), qs[|qs| - 1])
  }

  /** The number of questions across all sections. */
  function TotalSize(secs: seq<Section>): nat {
    if |secs| == 0 then 0 else TotalSize(secs[..|secs| - 1]) + |secs[|secs| - 1].members|
  }

  lemma {:induction false} TotalSizeUpdate(secs: seq<Section>, i: nat, s: Section)
    requires i < |secs|
    ensures TotalSize(secs[i := s]) + |secs[i].members| == TotalSize(secs) + |s.members|
  {
    var u := secs[i := s];
    if i < |secs| - 1 {
      assert u[..|u| - 1] == secs[..|secs| - 1][i := s];
      TotalSizeUpdate(secs[..|secs| - 1], i, s);
    } else {
      assert u[..|u| - 1] == secs[..|secs| - 1];
    }
  }

  predicate DistinctNames(secs: seq<Section>) {
    forall i, j :: 0 <= i < j < |secs| ==> secs[i].name != secs[j].name
  }

  /** Each section holds exactly the questions carrying its name, in order. */
  predicate MembersMatch(secs: seq<Section>, qs: seq<SessionQuestion>) {
    forall i :: 0 <= i < |secs| ==> secs[i].members == InSection(qs, secs[i].name)
  }

  predicate NoneEmpty(secs: seq<Section>) {
    forall i :: 0 <= i < |secs| ==> |secs[i].members| > 0
  }

  /** Every question's section exists. */
  predicate Covers(secs: seq<Section>, qs: seq<SessionQuestion>) {
    forall x :: x in qs ==> FindSection(secs, SectionOf(x)) >= 0
  }

  /** What the grouping of `qs` into `secs` guarantees. */
  predicate GroupedFrom(secs: seq<Section>, qs: seq<SessionQuestion>) {
    && DistinctNames(secs)
    && MembersMatch(secs, qs)
    && NoneEmpty(secs)
    && Covers(secs, qs)
    && TotalSize(secs) == |qs|
  }

  lemma InSectionSnoc(qs: seq<SessionQuestion>, sq: SessionQuestion, name: string)
    ensures InSection(qs + [sq], name) == InSection(qs, name) + (if SectionOf(sq) == name then [sq] else [])
  {
    assert (qs + [sq])[..|qs + [sq]| - 1] == qs;
  }

  /** No question carries the name: the section would be empty. */
  lemma {:induction false} InSectionAbsent(qs: seq<SessionQuestion>, name: string)
    requires forall x :: x in qs ==> SectionOf(x) != name
    ensures InSection(qs, name) == []
  {
    if |qs| > 0 {
      assert qs[|qs| - 1] in qs;
      InSectionAbsent(qs[..|qs| - 1], name);
    }
  }

  /** A section list whose names are those of `secs`, one by one, finds the
      same sections. */
  lemma SameNamesCover(secs: seq<Section>, u: seq<Section>, qs: seq<SessionQuestion>)
    requires |u| >= |secs|
    requires forall i :: 0 <= i < |secs| ==> u[i].name == secs[i].name
    requires Covers(secs, qs)
    ensures Covers(u, qs)
  {
    forall x | x in qs ensures FindSection(u, SectionOf(x)) >= 0 {
      var j := FindSection(secs, SectionOf(x));
      assert u[j].name == SectionOf(x);
    }
  }

  /** Appending `sq` to section `k` keeps every section's members those
      carrying its name. */
  lemma ExistingMembers(secs: seq<Section>, qs: seq<SessionQuestion>, sq: SessionQuestion, k: nat)
    requires MembersMatch(secs, qs) && DistinctNames(secs)
    requires k < |secs| && secs[k].name == SectionOf(sq)
    ensures MembersMatch(secs[k := Section(SectionOf(sq), secs[k].members + [sq])], qs + [sq])
  {
    var u := secs[k := Section(SectionOf(sq), secs[k].members + [sq])];
    forall i | 0 <= i < |u| ensures u[i].members == InSection(qs + [sq], u[i].name) {
      InSectionSnoc(qs, sq, u[i].name);
      assert secs[i].members == InSection(qs, secs[i].name);
      if i != k {
        assert u[i] == secs[i];
        assert secs[i].name != SectionOf(sq) by {
          if i < k { assert secs[i].name != secs[k].name; } else { assert secs[k].name != secs[i].name; }
        }
      }
    }
  }

  /** Replacing a section by one of the same name keeps names and coverage. */
  lemma ExistingNames(secs: seq<Section>, qs: seq<SessionQuestion>, sq: SessionQuestion, k: nat)
    requires DistinctNames(secs) && Covers(secs, qs) && NoneEmpty(secs)
    requires k < |secs| && secs[k].name == SectionOf(sq)
    ensures var u := secs[k := Section(SectionOf(sq), secs[k].members + [sq])];
      DistinctNames(u) && Covers(u, qs + [sq]) && NoneEmpty(u)
  {
    var u := secs[k := Section(SectionOf(sq), secs[k].members + [sq])];
    assert forall i :: 0 <= i < |u| ==> u[i].name == secs[i].name;
    SameNamesCover(secs, u, qs);
    assert FindSection(u, SectionOf(sq)) >= 0 by { assert u[k].name == SectionOf(sq); }
  }

  /** Adding a question to its existing section. */
  lemma AddToExisting(secs: seq<Section>, qs: seq<SessionQuestion>, sq: SessionQuestion)
    requires GroupedFrom(secs, qs)
    requires FindSection(secs, SectionOf(sq)) >= 0
    ensures GroupedFrom(AddToSections(secs, sq), qs + [sq])
  {
    var k := FindSection(secs, SectionOf(sq));
    var s := Section(SectionOf(sq), secs[k].members + [sq]);
    assert AddToSections(secs, sq) == secs[k := s];
    ExistingMembers(secs, qs, sq, k);
    ExistingNames(secs, qs, sq, k);
    TotalSizeUpdate(secs, k, s);
  }

  /** A question whose section is missing shares its name with no earlier
      question. */
  lemma NameIsNew(secs: seq<Section>, qs: seq<SessionQuestion>, sq: SessionQuestion)
    requires Covers(secs, qs)
    requires FindSection(secs, SectionOf(sq)) == -1
    ensures forall x :: x in qs ==> SectionOf(x) != SectionOf(sq)
  {
    forall x | x in qs ensures SectionOf(x) != SectionOf(sq) {
      var j := FindSection(secs, SectionOf(x));
      assert secs[j].name == SectionOf(x);
    }
  }

  /** A new last section for `sq` keeps every section's members those
      carrying its name. */
  lemma NewMembers(secs: seq<Section>, qs: seq<SessionQuestion>, sq: SessionQuestion)
    requires MembersMatch(secs, qs)
    requires forall i :: 0 <= i < |secs| ==> secs[i].name != SectionOf(sq)
    requires forall x :: x in qs ==> SectionOf(x) != SectionOf(sq)
    ensures MembersMatch(secs + [Section(SectionOf(sq), [sq])], qs + [sq])
  {
    var u := secs + [Section(SectionOf(sq), [sq])];
    InSectionAbsent(qs, SectionOf(sq));
    forall i | 0 <= i < |u| ensures u[i].members == InSection(qs + [sq], u[i].name) {
      InSectionSnoc(qs, sq, u[i].name);
      if i < |secs| {
        assert u[i] == secs[i];
        assert secs[i].members == InSection(qs, secs[i].name);
      }
    }
  }

  /** A new last section for `sq` keeps names distinct, coverage, no empty
      section and the size count. */
  lemma NewNames(secs: seq<Section>, qs: seq<SessionQuestion>, sq: SessionQuestion)
    requires DistinctNames(secs) && Covers(secs, qs) && NoneEmpty(secs) && TotalSize(secs) == |qs|
    requires FindSection(secs, SectionOf(sq)) == -1
    ensures var u := secs + [Section(SectionOf(sq), [sq])];
      DistinctNames(u) && Covers(u, qs + [sq]) && NoneEmpty(u) && TotalSize(u) == |qs + [sq]|
  {
    var u := secs + [Section(SectionOf(sq), [sq])];
    assert u[..|u| - 1] == secs;
    SameNamesCover(secs, u, qs);
    assert FindSection(u, SectionOf(sq)) >= 0 by { assert u[|u| - 1].name == SectionOf(sq); }
  }

  /** Opening a new section for a question. */
  lemma AddAsNew(secs: seq<Section>, qs: seq<SessionQuestion>, sq: SessionQuestion)
    requires GroupedFrom(secs, qs)
    requires FindSection(secs, SectionOf(sq)) == -1
    ensures GroupedFrom(AddToSections(secs, sq), qs + [sq])
  {
    var u := secs + [Section(SectionOf(sq), [sq])];
    assert AddToSections(secs, sq) == u;
    NameIsNew(secs, qs, sq);
    NewMembers(secs, qs, sq);
    NewNames(secs, qs, sq);
  }

  /** One step of the fold keeps the grouping a partition. */
  lemma AddKeepsGrouped(secs: seq<Section>, qs: seq<SessionQuestion>, sq: SessionQuestion)
    requires GroupedFrom(secs, qs)
    ensures GroupedFrom(AddToSections(secs, sq), qs + [sq])
  {
    if FindSection(secs, SectionOf(sq)) >= 0 {
      AddToExisting(secs, qs, sq);
    } else {
      AddAsNew(secs, qs, sq);
    }
  }

  /** The grouping is a partition of the questions: section names are
      distinct, each section holds exactly the questions carrying its name
      in their original order, none is empty, every question has its section,
      and the section sizes add up to the number of questions. */
  lemma {:induction false} GroupSectionsPartitions(qs: seq<SessionQuestion>)
    ensures GroupedFrom(GroupSections(qs), qs)
  {
    if |qs| > 0 {
      var init := qs[..|qs| - 1];
      var sq := qs[|qs| - 1];
      assert init + [sq] == qs;
      GroupSectionsPartitions(init);
      AddKeepsGrouped(GroupSections(init), init, sq);
      assert GroupSections(qs) == AddToSections(GroupSections(init), sq);
    }
  }

  /** Each question is listed in exactly one section, the one its
      `sectionName` (or `General`) names. */
  lemma ExactlyOneSection(qs: seq<SessionQuestion>, x: SessionQuestion)
    requires x in qs
    ensures exists i :: 0 <= i < |GroupSections(qs)| && x in GroupSections(qs)[i].members
    ensures forall i :: 0 <= i < |GroupSections(qs)| && x in GroupSections(qs)[i].members ==>
      GroupSections(qs)[i].name == SectionOf(x)
    ensures forall i, j :: 0 <= i < j < |GroupSections(qs)| ==>
      !(x in GroupSections(qs)[i].members && x in GroupSections(qs)[j].members)
  {
    var secs := GroupSections(qs);
    GroupSectionsPartitions(qs);
    assert named: forall i :: 0 <= i < |secs| && x in secs[i].members ==> secs[i].name == SectionOf(x) by {
      forall i | 0 <= i < |secs| && x in secs[i].members ensures secs[i].name == SectionOf(x) {
        assert secs[i].members == InSection(qs, secs[i].name);
      }
    }
    assert 0 <= FindSection(secs, SectionOf(x)) by {
      assert Covers(secs, qs);
    }
    var k := FindSection(secs, SectionOf(x));
    assert x in secs[k].members by {
      assert secs[k].members == InSection(qs, secs[k].name);
    }
    assert DistinctNames(secs);
  }
}

=== FILE: selection.dfy ===
/** The MULTI-question option toggle that the exam and the practice pages
    write as the same expression under different variable names. */
module Selection {
  import opened Types
  import opened Seqs

  /** Clicking option `o` of a MULTI question: removes it if selected,
      otherwise appends it. */
  function Toggle(sel: seq<Id>, o: Id): (r: seq<Id>)
    ensures o in r <==> o !in sel
    ensures forall x :: x != o ==> (x in r <==> x in sel)
    ensures NoDup(sel) ==> NoDup(r)
    ensures |r| <= |sel| + 1
  {
    if o in sel then Remove(sel, o)
    else
      assert NoDup(sel) ==> NoDup(sel + [o]) by {
        if NoDup(sel) {
          forall i, j | 0 <= i < j < |sel + [o]| ensures (sel + [o])[i] != (sel + [o])[j] {
            if j == |sel| { assert (sel + [o])[i] == sel[i]; }
          }
        }
      }
      sel + [o]
  }

  /** Two clicks on the same option restore which options are selected, and
      restore the selection exactly when the option was not selected. */
  lemma ToggleTwice(sel: seq<Id>, o: Id)
    ensures forall x :: x in Toggle(Toggle(sel, o), o) <==> x in sel
    ensures o !in sel ==> Toggle(Toggle(sel, o), o) == sel
  {
    if o !in sel {
      RemoveAppended(sel, o);
    }
  }
}

=== FILE: seqs.dfy ===
/** Order-preserving filtering, counting and summing over sequences: the
    `Array.prototype.filter` / `reduce` idioms the pages use. */
module Seqs {

  /** The elements of `s` satisfying `p`, in their original order. */
  function Filter<T(!new)>(s: seq<T>, p: T -> bool): (r: seq<T>)
    ensures |r| <= |s|
    ensures forall x :: x in r <==> x in s && p(x)
    ensures forall i :: 0 <= i < |r| ==> p(r[i])
  {
    if |s| == 0 then []
    else (if p(s[0]) then [s[0]] else []) + Filter(s[1..], p)
  }

  /** Filtering distributes over concatenation, so it keeps relative order. */
  lemma {:induction false} FilterAppend<T(!new)>(a: seq<T>, b: seq<T>, p: T -> bool)
    ensures Filter(a + b, p) == Filter(a, p) + Filter(b, p)
  {
    if |a| == 0 {
      assert a + b == b;
    } else {
      assert (a + b)[1..] == a[1..] + b;
      FilterAppend(a[1..], b, p);
    }
  }

  /** Filtering by a predicate every element satisfies changes nothing;
      by one no element satisfies, empties the sequence. */
  lemma {:induction false} FilterAllOrNone<T(!new)>(s: seq<T>, p: T -> bool)
    ensures (forall i :: 0 <= i < |s| ==> p(s[i])) ==> Filter(s, p) == s
    ensures (forall i :: 0 <= i < |s| ==> !p(s[i])) ==> Filter(s, p) == []
  {
    if |s| > 0 {
      FilterAllOrNone(s[1..], p);
      if forall i :: 0 <= i < |s| ==> p(s[i]) {
        assert forall i :: 0 <= i < |s[1..]| ==> p(s[1..][i]) by {
          forall i | 0 <= i < |s[1..]| ensures p(s[1..][i]) { assert s[1..][i] == s[i + 1]; }
        }
      }
      if forall i :: 0 <= i < |s| ==> !p(s[i]) {
        assert forall i :: 0 <= i < |s[1..]| ==> !p(s[1..][i]) by {
          forall i | 0 <= i < |s[1..]| ensures !p(s[1..][i]) { assert s[1..][i] == s[i + 1]; }
        }
      }
    }
  }

  /** Two predicates that agree on every element filter alike. */
  lemma {:induction false} FilterCongruent<T(!new)>(s: seq<T>, p: T -> bool, q: T -> bool)
    requires forall i :: 0 <= i < |s| ==> p(s[i]) == q(s[i])
    ensures Filter(s, p) == Filter(s, q)
  {
    if |s| > 0 {
      assert forall i :: 0 <= i < |s[1..]| ==> p(s[1..][i]) == q(s[1..][i]) by {
        forall i | 0 <= i < |s[1..]| ensures p(s[1..][i]) == q(s[1..][i]) { assert s[1..][i] == s[i + 1]; }
      }
      FilterCongruent(s[1..], p, q);
    }
  }

  /** No element occurs twice. */
  predicate NoDup<T(==)>(s: seq<T>) {
    forall i, j :: 0 <= i < j < |s| ==> s[i] != s[j]
  }

  /** `s` without any occurrence of `x`: `s.filter(y => y !== x)`. */
  function Remove<T(==,!new)>(s: seq<T>, x: T): (r: seq<T>)
    ensures |r| <= |s|
    ensures x !in r
    ensures forall y :: y in r <==> y in s && y != x
    ensures NoDup(s) ==> NoDup(r)
  {
    if |s| == 0 then []
    else
      var rest := Remove(s[1..], x);
      assert NoDup(s) ==> NoDup(s[1..]) && s[0] !in rest by {
        if NoDup(s) {
          forall i, j | 0 <= i < j < |s[1..]| ensures s[1..][i] != s[1..][j] {
            assert s[1..][i] == s[i + 1] && s[1..][j] == s[j + 1];
          }
          forall k | 0 <= k < |s[1..]| ensures s[1..][k] != s[0] { assert s[1..][k] == s[k + 1]; }
        }
      }
      (if s[0] == x then [] else [s[0]]) + rest
  }

  /** Removing from `s + [x]` an `x` absent from `s` gives `s` back. */
  lemma {:induction false} RemoveAppended<T(!new)>(s: seq<T>, x: T)
    requires x !in s
    ensures Remove(s + [x], x) == s
  {
    if |s| == 0 {
      assert Remove([x], x) == [] + Remove([x][1..], x);
    } else {
      assert (s + [x])[1..] == s[1..] + [x];
      assert x !in s[1..];
      RemoveAppended(s[1..], x);
    }
  }

  /** Sum of `f` over `s`: `s.reduce((a, e) => a + f(e), 0)`. */
  function Sum<T>(s: seq<T>, f: T -> nat): nat {
    if |s| == 0 then 0 else f(s[0]) + Sum(s[1..], f)
  }

  /** Summing distributes over concatenation. */
  lemma {:induction false} SumAppend<T>(a: seq<T>, b: seq<T>, f: T -> nat)
    ensures Sum(a + b, f) == Sum(a, f) + Sum(b, f)
  {
    if |a| == 0 {
      assert a + b == b;
    } else {
      assert (a + b)[1..] == a[1..] + b;
      SumAppend(a[1..], b, f);
    }
  }

  /** The first `n` elements, or all of them when there are fewer:
      `s.slice(0, n)`. */
  function Take<T>(s: seq<T>, n: nat): (r: seq<T>)
    ensures |r| == if n < |s| then n else |s|
    ensures forall i :: 0 <= i < |r| ==> r[i] == s[i]
  {
    if n < |s| then s[..n] else s
  }
}

=== FILE: types.dfy ===
/** The entities the quiz client receives from its backend (src/types/index.ts),
    reduced to the fields the client's own decision logic reads. Identifiers are
    strings; numbers the backend computes with fractions (marks, accuracy, numerical
    answers) are reals. */
module Types {

  /** An optional field: a TypeScript `x?: T` or `T | null`. */
  datatype Option<T> = None | Some(value: T)

  /** `o ?? fallback`: the value when present, `fallback` otherwise. */
  function Coalesce<T>(o: Option<T>, fallback: T): T {
    if o.Some? then o.value else fallback
  }

  type Id = string

  datatype Role = Student | Admin

  datatype User = User(id: Id, name: string, email: string, role: Role)

  datatype QuestionType = MCQ | MULTI | NAT

  datatype SessionMode = Practice | Exam

  datatype SessionStatus = InProgress | Submitted | Expired

  /** A question as the session pages see it: its kind, the ids of its options
      in display order, how many hints it carries and its explanation, if any. */
  datatype Question = Question(
    id: Id,
    kind: QuestionType,
    optionIds: seq<Id>,
    hintCount: nat,
    explanation: Option<string>)

  /** A graded attempt. `isCorrect` and `marksAwarded` are optional in the
      source's type and the client treats their absence explicitly. */
  datatype Attempt = Attempt(
    selectedOptionIds: seq<Id>,
    natResponse: Option<real>,
    isCorrect: Option<bool>,
    marksAwarded: Option<real>,
    hintsUsed: nat,
    isSkipped: bool)

  datatype SessionQuestion = SessionQuestion(
    id: Id,
    order: int,
    sectionName: Option<string>,
    question: Question,
    attempt: Option<Attempt>)

  /** One row of the session list shown on the dashboard. `questionCount` is
      the backend's `_count.sessionQuestions`, read with `?.` by the client. */
  datatype SessionSummary = SessionSummary(
    id: Id,
    mode: SessionMode,
    status: SessionStatus,
    accuracy: Option<real>,
    timeTakenSeconds: Option<nat>,
    questionCount: Option<nat>)

  /** What the backend answers to a practice attempt. */
  datatype AttemptResult = AttemptResult(
    isCorrect: bool,
    marksAwarded: real,
    correctOptionIds: seq<Id>,
    explanation: Option<string>)

  /** The body the client posts for one attempt; an absent field is `None`.
      The elapsed time it also carries comes from the wall clock and is not
      modelled. */
  datatype AttemptPayload = AttemptPayload(
    sessionQuestionId: Id,
    mode: SessionMode,
    selectedOptionIds: Option<seq<Id>>,
    natResponse: Option<real>,
    hintsUsed: Option<nat>,
    isSkipped: bool)
}
